=== FILE: README.md ===
# Track-Pit workshop dashboard — a Dafny model

Track-Pit's admin dashboard is a small Flask app over a Firestore document store.
The `/` route joins every user's services with four other sources: their status
timelines, the vehicle each service names, the user's invoices and the global
feedback collection. Two POST routes change the store. `update_status` sets the
`completedAt` of one timeline entry. `create_invoice` adds one unpaid invoice
for a service that has none yet.

This project models those routes and the two time formatters they use as pure
functions over an explicit store value:

- `Basics` (`basics.dfy`): an optional value and the first-match search that
  stands for the store's id lookups and equality-filtered queries.
- `Runtime` (`runtime.dfy`): field values with Python truthiness, and
  the library calls the model leaves uninterpreted (`strftime`, `fromisoformat`,
  `float()`, `str()` of a float). Those calls arrive as the function-valued
  fields of a `Library` argument.
- `TimeFormat`: `to_malaysia_str` and `to_input_value`, plus the fixed UTC+8 shift.
- `DocStore`: `users/{uid}` nodes with `services` (each with a `statusTimeline`),
  `vehicles` and `invoices`, plus the global `feedback` collection. Each
  sequence is in the store's iteration order. The well-formedness rule is
  unique ids per collection. The application rule is at most one invoice per
  `serviceId` in each user's invoices.
- `Dashboard` (`index.dfy`): `index()` as a pure join, `Index(store, lib)`.
- `Replies` (`replies.dfy`): the faults, the HTTP responses and the `Reply`
  that pairs a response with the new store.
- `TimelineUpdate`, `InvoiceCreation`: the two POST routes. Each returns a
  `Reply` that pairs the HTTP response with the new store.

A parent document can be missing while its sub-collections exist. So a user node
(`profile`) and a service node (`data`) may hold no document. The `users` and
`services` listings skip such nodes. `create_invoice` for a uid with no node
writes its invoice under a new profile-less node, so the dashboard never lists it.

`update_status` on a timeline entry that does not exist calls
`DocumentReference.update`, which raises NotFound for a missing document. The
reply is then a server error and the store is unchanged.

The `/` route reads a status-timeline entry's `status` and `completedAt` with the
document snapshot's own `get`, which raises `KeyError` for a field the document
lacks. One listed entry without either field therefore aborts the whole page
with a 500. `Dashboard.IndexPage` models this, and `Dashboard.Index` is the
record list the page shows when no entry is missing a field.

## Model

| member | source | states |
|---|---|---|
| TimeFormat.ToMalaysiaStr | track_pit/..app.py:22-29 | A missing or false value shows as "-". A true value that is not a timestamp shows as its `str()`, so a string passes through unchanged. A timestamp shows as the display format of its UTC+8 wall clock. |
| TimeFormat.ToInputValue | track_pit/..app.py:31-38 | The edit-control value is "" for a false value and for any non-timestamp. For a timestamp it is the input format of the UTC+8 wall clock. |
| TimeFormat.Localize | track_pit/..app.py:156-159 | Reading a naive time as Malaysian wall-clock time and converting to UTC gives the instant that Malaysian clocks show as that time. This inverts the display shift. |
| TimeFormat.InputValueEmptyIffNoTimestamp | track_pit/..app.py:31-38 | Given library formatters that obey the stated laws, and a timestamp whose Malaysian wall clock lies in years 1 to 9999, the edit control is empty exactly when the field holds no timestamp. On a day `localize` accepts, from year 1000 on, parsing the value back gives the wall clock floored to the minute. On 0001-01-01 and 9999-12-31 parsing and localizing it fails. |
| TimeFormat.FloorMinuteCommutes | track_pit/..app.py:156-159 | Flooring to the minute commutes with the UTC+8 shift, because the shift is a whole number of minutes. |
| DocStore.UniqueInvoiceQuery | track_pit/..app.py:90-99 | When the one-invoice-per-service rule holds, the `serviceId` equality query on a user's invoices matches at most one document. |
| Dashboard.VehicleFor | track_pit/..app.py:76-88 | `vehicle.id` is the service's `vehicleId` as stored. `model` and `plateNumber` are null when that id is missing or false. |
| Dashboard.VehicleForLookup | track_pit/..app.py:76-88 | `model` and `plateNumber` are null when the id names no vehicle document. Otherwise they come from the first vehicle document with that id. |
| Dashboard.InvoiceForFirstMatch | track_pit/..app.py:90-108 | `invoice` is null exactly when none of the user's invoices has the service's id. Otherwise it is the id, price, paid flag and formatted `issuedAt` of the first matching invoice. |
| Dashboard.FeedbackFor | track_pit/..app.py:111-126 | The feedback list for a service has at most one view per feedback document. Its order and contents are stated by the `FeedbackFor*` lemmas. |
| Dashboard.FeedbackForAppend | track_pit/..app.py:111-126 | Feedback keeps store order: the list for a concatenation of feedback collections is the concatenation of their lists. |
| Dashboard.FeedbackForMember | track_pit/..app.py:111-126 | A feedback view is listed exactly when some feedback document with that `serviceId` projects to it. |
| Dashboard.FeedbackForAllMatch | track_pit/..app.py:111-126 | There is no de-duplication. When every document matches, the list has one view per document, at the document's own position. |
| Dashboard.FeedbackForNoneMatch | track_pit/..app.py:111-126 | Feedback about other services contributes nothing. |
| Dashboard.MakeRecord | track_pit/..app.py:128-133 | A record carries its service id, its owning uid, and the user's name and email. |
| Dashboard.RecordContents | track_pit/..app.py:58-146 | A record's booked and created times go through `to_malaysia_str`, and its notes are the service's own. Its vehicle is `VehicleFor` of the service's `vehicleId`. Its invoice is `InvoiceFor` the service, which is null exactly when no invoice names it. Its feedbacks are `FeedbackFor` the service id in store order, or none for an empty id, and they are exactly the projections of the matching documents. Its timeline is `TimelineOf` the service's entries, one item per entry in store order, and a complete entry shows its `status` and its `completedAt` through both formatters. |
| Dashboard.IndexUsers | track_pit/..app.py:49-56 | The record list has as many records as there are listed (user, service) pairs. A pair is listed when both its user and service documents exist. The page shows this list only when `IndexPage` renders. |
| Dashboard.Index | track_pit/..app.py:46-56 | The `services` list of a store has one record per listed (user, service) pair. |
| Dashboard.IndexPage | track_pit/..app.py:44-149 | The route fails with a missing-field fault exactly when some listed service has a timeline entry without `status` or `completedAt`. Otherwise it renders the record list `Index`. Two further failures are not modelled (see "## Left out"). |
| Dashboard.IndexPageShowsEntry | track_pit/..app.py:67-74 | On a rendered page, each entry of a listed service appears in that service's record at its own place, with its stored `status`, and with `completedAt` through `to_input_value` and `to_malaysia_str`. |
| Dashboard.IndexRecordAt | track_pit/..app.py:49-56 | Each listed pair has its record at its user-then-service position. That record carries the pair's service id and uid. |
| Dashboard.IndexOrder | track_pit/..app.py:49-56 | Positions follow user-then-service order. An earlier user, or an earlier service of the same user, comes strictly first. |
| Dashboard.IndexCover | track_pit/..app.py:128-146 | Each output record is the record of some listed pair, at that pair's position. Together with IndexRecordAt and IndexOrder: exactly one record per pair, in order. |
| Dashboard.IndexCount | track_pit/..app.py:49-56 | The number of records equals the number of listed pairs, and every pair's position is inside the output. |
| Dashboard.IndexSameListing | track_pit/..app.py:49-56 | Two stores with the same users, services and vehicles put their records in the same places. |
| Dashboard.IndexBesidesTimelines | track_pit/..app.py:58-74 | When only status timelines differ between two stores, every record is the same except for its timeline. |
| Dashboard.IndexUsersAppend | track_pit/..app.py:49-52 | The records of two runs of user nodes, one after the other, are their records one after the other. |
| TimelineUpdate.CompletedAtValue | track_pit/..app.py:154-161 | An absent or empty form field writes null. A non-empty field raises exactly when `fromisoformat` rejects it. Otherwise a timestamp is written, and it is the instant that Malaysian clocks show as the parsed time. |
| TimelineUpdate.Locate | track_pit/..app.py:163-170 | A located entry is at a valid path whose user, service and entry ids are the route's arguments. |
| TimelineUpdate.LocateFinds | track_pit/..app.py:163-170 | In a well-formed store, any existing entry at `users/{uid}/services/{sid}/statusTimeline/{tid}` is the one the route addresses. |
| TimelineUpdate.SetCompletedAt | track_pit/..app.py:171 | The entry at the path keeps its id and `status`, and its `completedAt` becomes the new value. The field is added if the entry lacked it. |
| TimelineUpdate.SetCompletedAtFrame | track_pit/..app.py:171 | The update changes nothing else: other users, services and entries, and the user's profile, vehicles and invoices, stay the same. |
| TimelineUpdate.UpdateStatus | track_pit/..app.py:152-173 | A malformed time gives a server error and no write. A missing entry gives a server error and no write. Otherwise the reply is `{success: true, "Saved successfully"}`, and only that entry's `completedAt` changes: ids, `status`, other entries, services, vehicles, invoices, users and feedback stay the same. |
| TimelineUpdate.UpdateStatusPreservesInvariants | track_pit/..app.py:163-171 | The write keeps the store well formed and keeps the one-invoice-per-service rule. |
| TimelineUpdate.UpdateStatusIdempotent | track_pit/..app.py:163-173 | Sending the same form twice gives the same reply and store as sending it once. |
| TimelineUpdate.InputValueRoundTrip | track_pit/..app.py:154-159 | Given lawful formatters, submitting the edit control's value for a stored timestamp succeeds on a day `localize` accepts, from year 1000 on, and stores that instant floored to the minute. When the Malaysian wall clock is on 0001-01-01 or 9999-12-31, the route answers a server error and writes nothing. Outside years 1 to 9999 the page cannot show the control at all, because `astimezone` overflows. |
| TimelineUpdate.UpdateStatusIndex | track_pit/..app.py:163-171 | After a write the dashboard has the same records in the same places. Only the record of the written entry's service can change. In that record only the written timeline item changes, and it shows the new value through both formatters. |
| InvoiceCreation.CreateInvoice | track_pit/..app.py:179-225 | The checks run in order. An absent or empty price gives 400 "Price required". An existing invoice for the service gives 400 "Invoice already exists". An unparsable price raises. None of these writes anything. Otherwise the reply is success and exactly one invoice is appended to the user's invoices: the generated id, this `serviceId`, the parsed price, `paid` false, `issuedAt`, `createdAt` and `updatedAt` all equal to now, and `vehicleId`/`workshopId` copied from the service or null. Nothing else changes. |
| InvoiceCreation.NewInvoice | track_pit/..app.py:206-218 | The new invoice names the service and carries the parsed price. It is unpaid, and all three timestamps are now. `vehicleId` and `workshopId` come from the service document, or are null when it does not exist. |
| InvoiceCreation.AddInvoice | track_pit/..app.py:220-223 | The write leaves feedback untouched. It adds one user node exactly when the store held no node for `uid`. |
| InvoiceCreation.AddInvoiceFrame | track_pit/..app.py:220-223 | The write changes only the invoices of `uid`. Every node keeps its id, profile, services and vehicles. A node added at the end is a profile-less node for a uid the store did not hold. |
| InvoiceCreation.AddInvoiceShows | track_pit/..app.py:220-223 | After the write, the user's invoices are the old ones followed by the new one, including for a uid with no node before. |
| InvoiceCreation.CreateInvoiceKeepsOnePerService | track_pit/..app.py:186-223 | Every call keeps at most one invoice per `serviceId` in each user's invoices. |
| InvoiceCreation.CreateInvoicePreservesWellFormed | track_pit/..app.py:220-223 | When the generated id is fresh, ids stay unique in every collection. |
| InvoiceCreation.SecondCreateRefused | track_pit/..app.py:186-196 | After a successful creation, a second request for the same service with any non-empty price gives 400 "Invoice already exists" and writes nothing. |
| InvoiceCreation.SequentialCreatesKeepOnePerService | track_pit/..app.py:186-223 | Any sequence of requests, handled one after another, keeps the one-invoice-per-service rule. |
| InvoiceCreation.InvoiceForAppend | track_pit/..app.py:90-108 | Appending an invoice for another service leaves the dashboard's invoice for a service unchanged. Appending the first invoice for it makes that invoice the one shown. |
| InvoiceCreation.CreateInvoiceIndex | track_pit/..app.py:209-223 | After a created invoice the dashboard has the same records in the same places. The record of (uid, service) now shows the new invoice (id, price, unpaid, formatted `issuedAt`). Every other record is unchanged. |

## Left out

- Firestore client set-up, credentials, app start-up and `render_template` are I/O (track_pit/..app.py:1-17, 149, 229-230). The store is an explicit value passed in and returned. The `/` route's result is the record list it would hand to the template.
- `strftime`, `fromisoformat`, `float()` and `str()` of a float are library behaviour. They are uninterpreted `Library` fields. The round-trip lemmas assume only the stated laws about them (`LawfulLibrary`). `fromIsoFormat` stands for `fromisoformat` followed by `localize`. It is None for text that carries a UTC offset, because `localize` raises on an aware datetime. It is also None for any time on 0001-01-01 or 9999-12-31, where `localize` overflows.
- TimeFormat.LawfulLibrary: the laws say nothing about wall clocks outside Python's `datetime` range, years 1 to 9999. `astimezone` raises OverflowError there, so the page cannot show such a timestamp, and the model does not represent that error. `InputValueEmptyIffNoTimestamp` and `TimelineUpdate.InputValueRoundTrip` therefore require the timestamp's Malaysian wall clock to lie in that range.
- TimeFormat.LawfulLibrary: for years 2 to 999 the laws promise neither success nor failure of the parse-back. Whether `strftime("%Y")` zero-pads such years depends on the platform's C library, and `fromisoformat` needs four digits. `InputValueEmptyIffNoTimestamp` and `TimelineUpdate.InputValueRoundTrip` state no outcome for those years.
- TimeFormat.ToMalaysia: the time zone is a fixed UTC+8 shift. pytz's Asia/Kuala_Lumpur uses older offsets before 1982, such as +07:30, and the model does not reproduce them.
- Prices are `real`. The NaN and infinity values that `float()` accepts are not represented.
- A store or connectivity failure, which would fail any route, is not modelled.
- Concurrent requests are not modelled. `create_invoice`'s check-then-write race can break the one-invoice rule under concurrency, and the model handles requests one at a time.
- Dashboard.VehicleFor: a `vehicleId` that is not a plain document id is not modelled. The store client raises for some such values, such as non-strings or a string with an odd number of "/". For others, such as "a/b/c", it addresses a nested document. The model shows null fields for all of them.
- Dashboard.IndexPage: the route also ends with a 500 in two more cases, and the model renders the page in both. One is a truthy `vehicleId` that is not a string, for which the store client raises (track_pit/..app.py:79-85). The other is a stored timestamp in the last 8 hours of 9999-12-31 UTC, whose shift to UTC+8 at track_pit/..app.py:28 and 37 overflows `datetime`.
- InvoiceCreation.AddInvoice: the store lists documents in id order, so a new auto-id document can land anywhere in the invoice collection. The model appends it at the end. Under the one-invoice rule, where it lands does not change what the dashboard shows.
- InvoiceCreation.CreateInvoice: the generated document id is a parameter. Its freshness is assumed only by `CreateInvoicePreservesWellFormed`.
- Dashboard.TimelineOf: the timeline dict is a sequence of (id, view) pairs in store order. Entry ids are unique, so this is the dict.
- The Android `MainActivity.kt` method-channel handler only returns a platform directory path and is not part of this model.

=== FILE: basics.dfy ===
/** Small generic pieces shared by the rest of the model: an optional value and
    the "first element satisfying a predicate" search that stands for the
    store's id lookups and its equality-filtered queries. */
module Basics {

  datatype Option<T> = None | Some(value: T)

  /** `k` is the position of the first element of `xs` that satisfies `p`. */
  predicate IsFirst<T>(xs: seq<T>, p: T -> bool, k: int) {
    && 0 <= k < |xs|
    && p(xs[k])
    && forall j :: 0 <= j < k ==> !p(xs[j])
  }

  /** The position of the first element satisfying `p`, or None when no element does. */
  function FirstIndex<T>(xs: seq<T>, p: T -> bool): (r: Option<nat>)
    ensures r.None? <==> forall j :: 0 <= j < |xs| ==> !p(xs[j])
    ensures r.Some? ==> IsFirst(xs, p, r.value)
    decreases |xs|
  {
    if |xs| == 0 then None
    else if p(xs[0]) then Some(0)
    else match FirstIndex(xs[1..], p)
      case None => None
      case Some(k) => Some(k + 1)
  }

  /** Searching two sequences whose elements answer the predicates alike gives the same position. */
  lemma {:induction false} FirstIndexAgrees<T, U>(xs: seq<T>, p: T -> bool, ys: seq<U>, q: U -> bool)
    requires |xs| == |ys|
    requires forall i :: 0 <= i < |xs| ==> p(xs[i]) == q(ys[i])
    ensures FirstIndex(xs, p) == FirstIndex(ys, q)
    decreases |xs|
  {
    if |xs| > 0 && !p(xs[0]) {
      FirstIndexAgrees(xs[1..], p, ys[1..], q);
    }
  }

  lemma ConcatLeft<T>(a: seq<T>, b: seq<T>, k: nat)
    requires k < |a|
    ensures k < |a + b| && (a + b)[k] == a[k]
  {
  }

  lemma ConcatRight<T>(a: seq<T>, b: seq<T>, k: nat)
    requires k < |b|
    ensures |a| + k < |a + b| && (a + b)[|a| + k] == b[k]
  {
  }

  lemma TailAt<T>(xs: seq<T>, k: nat)
    requires 0 < k < |xs|
    ensures xs[1..][k - 1] == xs[k]
  {
  }
}

=== FILE: create_invoice.dfy ===
/** The `/invoice/<uid>/<service_id>` route: it checks the price, then that no
    invoice names the service yet, then adds one unpaid invoice stamped with
    the current instant. */
module InvoiceCreation {
  import opened Basics
  import opened Runtime
  import opened TimeFormat
  import opened DocStore
  import opened Replies
  import opened Dashboard

  /** `if not price`: the form field is absent or empty. */
  predicate PriceMissing(price: Option<string>) {
    price.None? || price.value == ""
  }

  /** Some invoice in `invoices` names service `sid` (`any(existing)`). */
  predicate HasInvoice(invoices: seq<Doc<Invoice>>, sid: string) {
    exists k :: 0 <= k < |invoices| && InvoiceMatches(invoices[k], sid)
  }

  /** The fields the route writes. A service document that does not exist reads
      as `{}`, so its `vehicleId` and `workshopId` are written as null. */
  function NewInvoice(service: Option<Service>, sid: string, price: real, now: Instant): (r: Invoice)
    ensures r.serviceId == Str(sid)
    ensures r.paid == Bool(false) && !Truthy(r.paid) && r.price == Double(price)
    ensures r.issuedAt == Time(now) && r.createdAt == Time(now) && r.updatedAt == Time(now)
    ensures service.Some? ==> r.vehicleId == service.value.vehicleId && r.workshopId == service.value.workshopId
    ensures service.None? ==> r.vehicleId == Null && r.workshopId == Null
  {
    Invoice(
      if service.Some? then service.value.vehicleId else Null,
      Str(sid),
      if service.Some? then service.value.workshopId else Null,
      Double(price),
      Bool(false),
      Time(now),
      Time(now),
      Time(now))
  }

  /** `invoices_ref.document().set(invoice_data)`: the new document joins the
      user's invoices. With nothing stored at `users/{uid}` yet, a node holding
      only that invoice comes into being, which the `users` listing never returns. */
  function AddInvoice(s: Store, uid: string, d: Doc<Invoice>): (r: Store)
    ensures r.feedback == s.feedback
    ensures |r.users| == |s.users| + (if FindUser(s, uid).None? then 1 else 0)
  {
    match FindUser(s, uid)
    case Some(i) => s.(users := s.users[i := s.users[i].(invoices := s.users[i].invoices + [d])])
    case None => s.(users := s.users + [UserNode(uid, None, [], [], [d])])
  }

  /** `s'` differs from `s` only in the invoices of `uid`: every node keeps its id,
      profile, services and vehicles, the invoices of other nodes are untouched,
      and a node added at the end stands for a `uid` the store did not hold. */
  predicate OnlyInvoicesOfUserChange(s: Store, s': Store, uid: string) {
    && s'.feedback == s.feedback
    && |s.users| <= |s'.users| <= |s.users| + 1
    && (forall i :: 0 <= i < |s.users| ==>
          && s'.users[i].id == s.users[i].id
          && s'.users[i].profile == s.users[i].profile
          && s'.users[i].services == s.users[i].services
          && s'.users[i].vehicles == s.users[i].vehicles)
    && (forall i :: 0 <= i < |s.users| && s.users[i].id != uid ==> s'.users[i].invoices == s.users[i].invoices)
    && (|s'.users| > |s.users| ==>
          && FindUser(s, uid).None?
          && s'.users[|s.users|] == UserNode(uid, None, [], [], s'.users[|s.users|].invoices))
  }

  /** `create_invoice(uid, service_id)` with the form field `price`, at instant
      `now`, with `autoId` the id the store generates for the new document. */
  function CreateInvoice(s: Store, uid: string, sid: string, price: Option<string>, now: Instant, autoId: string, lib: Library): (r: Reply)
    ensures PriceMissing(price) ==> r == Reply(Json(400, false, "Price required"), s)
    ensures !PriceMissing(price) && HasInvoice(InvoicesOf(s, uid), sid) ==>
      r == Reply(Json(400, false, "Invoice already exists"), s)
    ensures !PriceMissing(price) && !HasInvoice(InvoicesOf(s, uid), sid) && lib.parseFloat(price.value).None? ==>
      r == Reply(ServerError(MalformedPrice), s)
    ensures !PriceMissing(price) && !HasInvoice(InvoicesOf(s, uid), sid) && lib.parseFloat(price.value).Some? ==>
      && r.response == Json(200, true, "Invoice created successfully")
      && OnlyInvoicesOfUserChange(s, r.store, uid)
      && var before, after := InvoicesOf(s, uid), InvoicesOf(r.store, uid);
      && |after| == |before| + 1
      && after[..|before|] == before
      && var d := after[|before|];
      && d.id == autoId
      && d.data.serviceId == Str(sid)
      && d.data.price == Double(lib.parseFloat(price.value).value)
      && d.data.paid == Bool(false)
      && d.data.issuedAt == Time(now) && d.data.createdAt == Time(now) && d.data.updatedAt == Time(now)
      && d.data.vehicleId == (if ServiceOf(s, uid, sid).Some? then ServiceOf(s, uid, sid).value.vehicleId else Null)
      && d.data.workshopId == (if ServiceOf(s, uid, sid).Some? then ServiceOf(s, uid, sid).value.workshopId else Null)
  {
    if PriceMissing(price) then
      Reply(Json(400, false, "Price required"), s)
    else if FirstInvoice(InvoicesOf(s, uid), sid).Some? then
      Reply(Json(400, false, "Invoice already exists"), s)
    else
      var service := ServiceOf(s, uid, sid);
      match lib.parseFloat(price.value)
      case None => Reply(ServerError(MalformedPrice), s)
      case Some(x) =>
        var d := Doc(autoId, NewInvoice(service, sid, x, now));
        var s' := AddInvoice(s, uid, d);
        assert InvoicesOf(s', uid) == InvoicesOf(s, uid) + [d] by {
          AddInvoiceShows(s, uid, d);
        }
        AddInvoiceFrame(s, uid, d);
        Reply(Json(200, true, "Invoice created successfully"), s')
  }

  /** The write changes only the invoices of `uid`. */
  lemma AddInvoiceFrame(s: Store, uid: string, d: Doc<Invoice>)
    ensures OnlyInvoicesOfUserChange(s, AddInvoice(s, uid, d), uid)
  {
  }

  /** After the write, the invoices of `uid` are the old ones followed by the new one. */
  lemma AddInvoiceShows(s: Store, uid: string, d: Doc<Invoice>)
    ensures InvoicesOf(AddInvoice(s, uid, d), uid) == InvoicesOf(s, uid) + [d]
  {
    var s' := AddInvoice(s, uid, d);
    if FindUser(s, uid).Some? {
      FirstIndexAgrees(s.users, (u: UserNode) => u.id == uid, s'.users, (u: UserNode) => u.id == uid);
    } else {
      assert s'.users[|s.users|].id == uid;
    }
  }

  /** The rule of at most one invoice per service survives every call. */
  lemma CreateInvoiceKeepsOnePerService(s: Store, uid: string, sid: string, price: Option<string>, now: Instant, autoId: string, lib: Library)
    requires OneInvoicePerService(s)
    ensures OneInvoicePerService(CreateInvoice(s, uid, sid, price, now, autoId, lib).store)
  {
    var r := CreateInvoice(s, uid, sid, price, now, autoId, lib);
    if r.store != s {
      var i := FindUser(s, uid);
      if i.Some? {
        var invs := s.users[i.value].invoices;
        var invs' := r.store.users[i.value].invoices;
        assert invs' == invs + [invs'[|invs|]];
        assert InvoicesUnique(invs') by {
          assert InvoicesUnique(invs);
          assert !HasInvoice(invs, sid);
          forall a, b | 0 <= a < b < |invs'| && invs'[a].data.serviceId.Str?
            ensures invs'[a].data.serviceId != invs'[b].data.serviceId
          {
            if b == |invs| {
              assert !InvoiceMatches(invs[a], sid);
            }
          }
        }
      }
    }
  }

  /** Adding a document whose id the user's invoices do not hold keeps ids unique. */
  lemma AddInvoicePreservesWellFormed(s: Store, uid: string, d: Doc<Invoice>)
    requires WellFormed(s)
    requires forall k :: 0 <= k < |InvoicesOf(s, uid)| ==> InvoicesOf(s, uid)[k].id != d.id
    ensures WellFormed(AddInvoice(s, uid, d))
  {
    var s' := AddInvoice(s, uid, d);
    match FindUser(s, uid)
    case Some(i) =>
      var u := s.users[i];
      var u' := u.(invoices := u.invoices + [d]);
      assert s'.users == s.users[i := u'];
      assert NodeWellFormed(u);
      assert DistinctIds(u'.invoices) by {
        forall a, b | 0 <= a < b < |u'.invoices|
          ensures u'.invoices[a].id != u'.invoices[b].id
        {
          if b == |u.invoices| {
            assert u'.invoices[a] == InvoicesOf(s, uid)[a];
          }
        }
      }
      assert NodeWellFormed(u');
    case None =>
      assert s'.users == s.users + [UserNode(uid, None, [], [], [d])];
  }

  /** A stored id is never reused: with a fresh `autoId`, ids stay unique in every collection. */
  lemma CreateInvoicePreservesWellFormed(s: Store, uid: string, sid: string, price: Option<string>, now: Instant, autoId: string, lib: Library)
    requires WellFormed(s)
    requires forall k :: 0 <= k < |InvoicesOf(s, uid)| ==> InvoicesOf(s, uid)[k].id != autoId
    ensures WellFormed(CreateInvoice(s, uid, sid, price, now, autoId, lib).store)
  {
    if !PriceMissing(price) && FirstInvoice(InvoicesOf(s, uid), sid).None? && lib.parseFloat(price.value).Some? {
      var x := lib.parseFloat(price.value).value;
      var d := Doc(autoId, NewInvoice(ServiceOf(s, uid, sid), sid, x, now));
      assert CreateInvoice(s, uid, sid, price, now, autoId, lib).store == AddInvoice(s, uid, d);
      AddInvoicePreservesWellFormed(s, uid, d);
    }
  }

  /** A second request for the same service is refused and writes nothing,
      whatever price it carries. */
  lemma SecondCreateRefused(s: Store, uid: string, sid: string, price: Option<string>, now: Instant, autoId: string,
                            price2: Option<string>, now2: Instant, autoId2: string, lib: Library)
    requires CreateInvoice(s, uid, sid, price, now, autoId, lib).response.Json?
    requires CreateInvoice(s, uid, sid, price, now, autoId, lib).response.success
    requires !PriceMissing(price2)
    ensures var s' := CreateInvoice(s, uid, sid, price, now, autoId, lib).store;
      CreateInvoice(s', uid, sid, price2, now2, autoId2, lib) == Reply(Json(400, false, "Invoice already exists"), s')
  {
    var s' := CreateInvoice(s, uid, sid, price, now, autoId, lib).store;
    var before := InvoicesOf(s, uid);
    var after := InvoicesOf(s', uid);
    assert InvoiceMatches(after[|before|], sid);
  }

  /** One request to the route, with the instant and the generated id it gets. */
  datatype InvoiceRequest = InvoiceRequest(uid: string, sid: string, price: Option<string>, now: Instant, autoId: string)

  /** The store after handling `reqs` one after another. */
  function RunCreates(s: Store, reqs: seq<InvoiceRequest>, lib: Library): Store
    decreases |reqs|
  {
    if |reqs| == 0 then s
    else
      var q := reqs[0];
      RunCreates(CreateInvoice(s, q.uid, q.sid, q.price, q.now, q.autoId, lib).store, reqs[1..], lib)
  }

  /** Handled one at a time, any sequence of requests keeps at most one invoice per service. */
  lemma {:induction false} SequentialCreatesKeepOnePerService(s: Store, reqs: seq<InvoiceRequest>, lib: Library)
    requires OneInvoicePerService(s)
    ensures OneInvoicePerService(RunCreates(s, reqs, lib))
    decreases |reqs|
  {
    if |reqs| > 0 {
      var q := reqs[0];
      CreateInvoiceKeepsOnePerService(s, q.uid, q.sid, q.price, q.now, q.autoId, lib);
      SequentialCreatesKeepOnePerService(CreateInvoice(s, q.uid, q.sid, q.price, q.now, q.autoId, lib).store, reqs[1..], lib);
    }
  }

  /** Adding an invoice for another service leaves the first-match answer alone;
      adding the first one for this service makes it the answer. */
  lemma InvoiceForAppend(invoices: seq<Doc<Invoice>>, d: Doc<Invoice>, sid: string, lib: Library)
    ensures !InvoiceMatches(d, sid) ==> InvoiceFor(invoices + [d], sid, lib) == InvoiceFor(invoices, sid, lib)
    ensures InvoiceMatches(d, sid) && !HasInvoice(invoices, sid) ==>
      InvoiceFor(invoices + [d], sid, lib) == Some(ViewInvoice(d, lib))
  {
    var xs := invoices + [d];
    assert forall k :: 0 <= k < |invoices| ==> xs[k] == invoices[k];
    match FirstInvoice(invoices, sid)
    case Some(k) =>
      assert InvoiceMatches(xs[k], sid);
    case None =>
      assert xs[|invoices|] == d;
  }

  /** With a node for `uid` in place, a written invoice moves no record and
      changes only the invoice of the record for the service it names. */
  lemma AddInvoiceRecordAt(s: Store, uid: string, sid: string, d: Doc<Invoice>, lib: Library, i: nat, j: nat)
    requires WellFormed(s) && FindUser(s, uid).Some?
    requires InvoiceMatches(d, sid) && !HasInvoice(InvoicesOf(s, uid), sid)
    requires ListedAt(s.users, i, j)
    ensures var s' := AddInvoice(s, uid, d);
      var k := Position(s.users, i, j);
      && |Index(s', lib)| == |Index(s, lib)|
      && k < |Index(s, lib)|
      && Index(s', lib)[k] ==
           if s.users[i].id == uid && s.users[i].services[j].id == sid
           then Index(s, lib)[k].(invoice := Some(ViewInvoice(d, lib)))
           else Index(s, lib)[k]
  {
    var s' := AddInvoice(s, uid, d);
    var i0 := FindUser(s, uid).value;
    AddInvoiceFrame(s, uid, d);
    assert SameListing(s.users, s'.users);
    IndexSameListing(s, s', lib);
    IndexRecordAt(s, lib, i, j);
    IndexRecordAt(s', lib, i, j);
    var svc := s.users[i].services[j];
    if i == i0 {
      var invs := s.users[i0].invoices;
      assert s'.users[i0].invoices == invs + [d];
      InvoiceForAppend(invs, d, svc.id, lib);
    } else {
      assert s'.users[i] == s.users[i];
      assert s.users[i].id != uid;
    }
  }

  /** What the dashboard shows after a created invoice: the same records in the
      same places; the record of the service now carries the new invoice, and
      every other record is unchanged. */
  lemma CreateInvoiceIndex(s: Store, uid: string, sid: string, price: Option<string>, now: Instant, autoId: string, lib: Library)
    requires WellFormed(s)
    requires !PriceMissing(price) && !HasInvoice(InvoicesOf(s, uid), sid) && lib.parseFloat(price.value).Some?
    ensures var s' := CreateInvoice(s, uid, sid, price, now, autoId, lib).store;
      && |Index(s', lib)| == |Index(s, lib)|
      && forall k :: 0 <= k < |Index(s, lib)| ==>
           Index(s', lib)[k] ==
             if Index(s, lib)[k].uid == uid && Index(s, lib)[k].id == sid
             then Index(s, lib)[k].(invoice := Some(InvoiceView(autoId, Double(lib.parseFloat(price.value).value),
                                                              Bool(false), ToMalaysiaStr(Time(now), lib))))
             else Index(s, lib)[k]
  {
    var x := lib.parseFloat(price.value).value;
    var d := Doc(autoId, NewInvoice(ServiceOf(s, uid, sid), sid, x, now));
    var s' := AddInvoice(s, uid, d);
    assert CreateInvoice(s, uid, sid, price, now, autoId, lib).store == s';
    var view := InvoiceView(autoId, Double(x), Bool(false), ToMalaysiaStr(Time(now), lib));
    assert ViewInvoice(d, lib) == view;
    match FindUser(s, uid)
    case None =>
      IndexUsersAppend(s.users, [UserNode(uid, None, [], [], [d])], s.feedback, lib);
      assert Index(s', lib) == Index(s, lib);
      forall k | 0 <= k < |Index(s, lib)|
        ensures Index(s, lib)[k].uid != uid
      {
        IndexCover(s, lib, k);
      }
    case Some(i0) =>
      assert SameListing(s.users, s'.users) by {
        AddInvoiceFrame(s, uid, d);
      }
      IndexSameListing(s, s', lib);
      forall k | 0 <= k < |Index(s, lib)|
        ensures Index(s', lib)[k] ==
             if Index(s, lib)[k].uid == uid && Index(s, lib)[k].id == sid
             then Index(s, lib)[k].(invoice := Some(view))
             else Index(s, lib)[k]
      {
        IndexCover(s, lib, k);
        var i, j :| ListedAt(s.users, i, j) && k == Position(s.users, i, j) &&
          Index(s, lib)[k] == MakeRecord(s.users[i], s.users[i].services[j], s.feedback, lib);
        AddInvoiceRecordAt(s, uid, sid, d, lib, i, j);
      }
  }
}

=== FILE: index.dfy ===
/** The `/` route: one flattened record per service, joined with the user's
    profile, the service's status timeline, its vehicle, its invoice and the
    global feedback about it. Rendering the records into a page is not modelled. */
module Dashboard {
  import opened Basics
  import opened Runtime
  import opened TimeFormat
  import opened DocStore
  import opened Replies

  datatype TimelineView = TimelineView(status: Value, completedAt: string, display: string)

  datatype VehicleView = VehicleView(id: Value, model: Value, plateNumber: Value)

  datatype InvoiceView = InvoiceView(id: string, price: Value, paid: Value, issuedAt: string)

  datatype FeedbackView = FeedbackView(
    id: string,
    email: Value,
    rating: Value,
    message: Value,
    createdAt: string)

  /** One entry of the `services` list handed to the template. The timeline is
      the dict keyed by entry id, kept in the order the store lists the entries. */
  datatype ServiceRecord = ServiceRecord(
    id: string,
    uid: string,
    userName: Value,
    userEmail: Value,
    bookedDateTime: string,
    createdAt: string,
    notes: Value,
    timeline: seq<(string, TimelineView)>,
    vehicle: VehicleView,
    invoice: Option<InvoiceView>,
    feedbacks: seq<FeedbackView>)

  // ---------------------------------------------------------------------------
  // The pieces of one record
  // ---------------------------------------------------------------------------

  /** A field read from a timeline entry. An absent field makes the route raise
      before any page is rendered (`IndexPage`), so the Null read here for it is
      never shown. */
  function FieldValue(f: Option<Value>): Value {
    if f.Some? then f.value else Null
  }

  function ViewTimeline(e: TimelineEntry, lib: Library): TimelineView {
    TimelineView(FieldValue(e.status), ToInputValue(FieldValue(e.completedAt), lib), ToMalaysiaStr(FieldValue(e.completedAt), lib))
  }

  function TimelineOf(entries: seq<Doc<TimelineEntry>>, lib: Library): seq<(string, TimelineView)> {
    seq(|entries|, k requires 0 <= k < |entries| => (entries[k].id, ViewTimeline(entries[k].data, lib)))
  }

  /** The `vehicle` sub-object: the service's `vehicleId` as given, and the
      vehicle document's fields only when that id is set and names a document
      (`VehicleForLookup` states the lookup). */
  function VehicleFor(vehicles: seq<Doc<Vehicle>>, vehicleId: Value): (r: VehicleView)
    ensures r.id == vehicleId
    ensures !Truthy(vehicleId) ==> r.model == Null && r.plateNumber == Null
  {
    if !Truthy(vehicleId) then VehicleView(vehicleId, Null, Null)
    else match FindVehicle(vehicles, vehicleId)
      case None => VehicleView(vehicleId, Null, Null)
      case Some(k) => VehicleView(vehicleId, vehicles[k].data.model, vehicles[k].data.plateNumber)
  }

  /** An id naming no vehicle document gives null fields; otherwise the fields
      come from the first document with that id. */
  lemma VehicleForLookup(vehicles: seq<Doc<Vehicle>>, vehicleId: Value)
    ensures (forall k :: 0 <= k < |vehicles| ==> Str(vehicles[k].id) != vehicleId) ==>
              VehicleFor(vehicles, vehicleId).model == Null && VehicleFor(vehicles, vehicleId).plateNumber == Null
    ensures forall k ::
              (0 <= k < |vehicles| && Truthy(vehicleId) && Str(vehicles[k].id) == vehicleId &&
               forall j :: 0 <= j < k ==> Str(vehicles[j].id) != vehicleId) ==>
              VehicleFor(vehicles, vehicleId).model == vehicles[k].data.model &&
              VehicleFor(vehicles, vehicleId).plateNumber == vehicles[k].data.plateNumber
  {
  }

  function ViewInvoice(d: Doc<Invoice>, lib: Library): InvoiceView {
    InvoiceView(d.id, d.data.price, d.data.paid, ToMalaysiaStr(d.data.issuedAt, lib))
  }

  /** The `invoice` sub-object; `InvoiceForFirstMatch` says which invoice it shows. */
  function InvoiceFor(invoices: seq<Doc<Invoice>>, sid: string, lib: Library): Option<InvoiceView> {
    match FirstInvoice(invoices, sid)
    case None => None
    case Some(k) => Some(ViewInvoice(invoices[k], lib))
  }

  /** The `invoice` sub-object is null exactly when no invoice of the user names
      the service, and otherwise the projection of the first one that does. */
  lemma InvoiceForFirstMatch(invoices: seq<Doc<Invoice>>, sid: string, lib: Library)
    ensures InvoiceFor(invoices, sid, lib).None? <==> forall k :: 0 <= k < |invoices| ==> !InvoiceMatches(invoices[k], sid)
    ensures forall k ::
              (0 <= k < |invoices| && InvoiceMatches(invoices[k], sid) &&
               forall j :: 0 <= j < k ==> !InvoiceMatches(invoices[j], sid)) ==>
              InvoiceFor(invoices, sid, lib) == Some(ViewInvoice(invoices[k], lib))
  {
  }

  /** The equality filter `where("serviceId", "==", sid)` on feedback. */
  predicate FeedbackMatches(d: Doc<Feedback>, sid: string) {
    d.data.serviceId == Str(sid)
  }

  function ViewFeedback(d: Doc<Feedback>, lib: Library): FeedbackView {
    FeedbackView(d.id, d.data.email, d.data.rating, d.data.message, ToMalaysiaStr(d.data.createdAt, lib))
  }

  /** The feedback about service `sid`, projected, in store order: at most one
      view per document. Order, multiplicity and contents are stated by the
      `FeedbackFor*` lemmas below. */
  function FeedbackFor(feedback: seq<Doc<Feedback>>, sid: string, lib: Library): (r: seq<FeedbackView>)
    ensures |r| <= |feedback|
    decreases |feedback|
  {
    if |feedback| == 0 then []
    else
      (if FeedbackMatches(feedback[0], sid) then [ViewFeedback(feedback[0], lib)] else [])
      + FeedbackFor(feedback[1..], sid, lib)
  }

  /** Store order is kept: the feedback of a concatenation is the concatenation of the feedbacks. */
  lemma {:induction false} FeedbackForAppend(a: seq<Doc<Feedback>>, b: seq<Doc<Feedback>>, sid: string, lib: Library)
    ensures FeedbackFor(a + b, sid, lib) == FeedbackFor(a, sid, lib) + FeedbackFor(b, sid, lib)
    decreases |a|
  {
    if |a| == 0 {
      assert a + b == b;
    } else {
      assert (a + b)[0] == a[0];
      assert (a + b)[1..] == a[1..] + b;
      FeedbackForAppend(a[1..], b, sid, lib);
    }
  }

  /** A view is in the list exactly when some matching feedback document projects to it. */
  lemma {:induction false} FeedbackForMember(feedback: seq<Doc<Feedback>>, sid: string, lib: Library, v: FeedbackView)
    ensures v in FeedbackFor(feedback, sid, lib) <==>
      exists k :: 0 <= k < |feedback| && FeedbackMatches(feedback[k], sid) && v == ViewFeedback(feedback[k], lib)
    decreases |feedback|
  {
    if |feedback| > 0 {
      FeedbackForMember(feedback[1..], sid, lib, v);
      if v in FeedbackFor(feedback[1..], sid, lib) {
        var k :| 0 <= k < |feedback[1..]| && FeedbackMatches(feedback[1..][k], sid) && v == ViewFeedback(feedback[1..][k], lib);
        assert feedback[1..][k] == feedback[k + 1];
      }
      if exists k :: 0 <= k < |feedback| && FeedbackMatches(feedback[k], sid) && v == ViewFeedback(feedback[k], lib) {
        var k :| 0 <= k < |feedback| && FeedbackMatches(feedback[k], sid) && v == ViewFeedback(feedback[k], lib);
        if k > 0 {
          assert feedback[1..][k - 1] == feedback[k];
        }
      }
    }
  }

  /** No de-duplication: when every document matches, each one appears, at its own position. */
  lemma {:induction false} FeedbackForAllMatch(feedback: seq<Doc<Feedback>>, sid: string, lib: Library)
    requires forall k :: 0 <= k < |feedback| ==> FeedbackMatches(feedback[k], sid)
    ensures |FeedbackFor(feedback, sid, lib)| == |feedback|
    ensures forall k :: 0 <= k < |feedback| ==> FeedbackFor(feedback, sid, lib)[k] == ViewFeedback(feedback[k], lib)
    decreases |feedback|
  {
    if |feedback| > 0 {
      FeedbackForAllMatch(feedback[1..], sid, lib);
    }
  }

  /** Feedback about other services contributes nothing. */
  lemma {:induction false} FeedbackForNoneMatch(feedback: seq<Doc<Feedback>>, sid: string, lib: Library)
    requires forall k :: 0 <= k < |feedback| ==> !FeedbackMatches(feedback[k], sid)
    ensures FeedbackFor(feedback, sid, lib) == []
    decreases |feedback|
  {
    if |feedback| > 0 {
      FeedbackForNoneMatch(feedback[1..], sid, lib);
    }
  }

  /** The record for service `svc` of user `u`; `RecordContents` says what it holds. */
  function MakeRecord(u: UserNode, svc: ServiceNode, feedback: seq<Doc<Feedback>>, lib: Library): (r: ServiceRecord)
    requires u.profile.Some? && svc.data.Some?
    ensures r.id == svc.id && r.uid == u.id
    ensures r.userName == u.profile.value.fullName && r.userEmail == u.profile.value.email
  {
    var service := svc.data.value;
    ServiceRecord(
      svc.id,
      u.id,
      u.profile.value.fullName,
      u.profile.value.email,
      ToMalaysiaStr(service.bookedDateTime, lib),
      ToMalaysiaStr(service.createdAt, lib),
      service.notes,
      TimelineOf(svc.timeline, lib),
      VehicleFor(u.vehicles, service.vehicleId),
      InvoiceFor(u.invoices, svc.id, lib),
      if svc.id != "" then FeedbackFor(feedback, svc.id, lib) else [])
  }

  /** Every field of a record, in terms of the pieces above: the feedbacks in
      store order and exactly the matching documents' projections, the invoice
      null exactly when none names the service, and each complete timeline entry
      shown with its own `status` and its `completedAt` through both formatters. */
  lemma RecordContents(u: UserNode, svc: ServiceNode, feedback: seq<Doc<Feedback>>, lib: Library)
    requires u.profile.Some? && svc.data.Some?
    ensures var r := MakeRecord(u, svc, feedback, lib);
      && r.bookedDateTime == ToMalaysiaStr(svc.data.value.bookedDateTime, lib)
      && r.createdAt == ToMalaysiaStr(svc.data.value.createdAt, lib)
      && r.notes == svc.data.value.notes
      && r.vehicle == VehicleFor(u.vehicles, svc.data.value.vehicleId)
      && r.vehicle.id == svc.data.value.vehicleId
      && r.invoice == InvoiceFor(u.invoices, svc.id, lib)
      && (r.invoice.None? <==> forall k :: 0 <= k < |u.invoices| ==> !InvoiceMatches(u.invoices[k], svc.id))
      && r.feedbacks == (if svc.id != "" then FeedbackFor(feedback, svc.id, lib) else [])
      && r.timeline == TimelineOf(svc.timeline, lib)
      && |r.timeline| == |svc.timeline|
    ensures svc.id != "" ==> forall v ::
      v in MakeRecord(u, svc, feedback, lib).feedbacks <==>
        exists k :: 0 <= k < |feedback| && FeedbackMatches(feedback[k], svc.id) && v == ViewFeedback(feedback[k], lib)
    ensures forall k :: 0 <= k < |svc.timeline| && EntryComplete(svc.timeline[k].data) ==>
      var e := svc.timeline[k];
      MakeRecord(u, svc, feedback, lib).timeline[k] ==
        (e.id, TimelineView(e.data.status.value, ToInputValue(e.data.completedAt.value, lib),
                            ToMalaysiaStr(e.data.completedAt.value, lib)))
  {
    InvoiceForFirstMatch(u.invoices, svc.id, lib);
    if svc.id != "" {
      forall v {
        FeedbackForMember(feedback, svc.id, lib, v);
      }
    }
  }

  // ---------------------------------------------------------------------------
  // The join over users and services
  // ---------------------------------------------------------------------------

  /** How many of the first `j` services have a service document, that is, are listed. */
  function RankOf(svcs: seq<ServiceNode>, j: nat): nat
    requires j <= |svcs|
    decreases j
  {
    if j == 0 then 0 else (if svcs[0].data.Some? then 1 else 0) + RankOf(svcs[1..], j - 1)
  }

  /** A rank counts the first node, then ranks the rest. */
  lemma RankOfStep(svcs: seq<ServiceNode>, j: nat)
    requires 0 < j <= |svcs|
    ensures RankOf(svcs, j) == (if svcs[0].data.Some? then 1 else 0) + RankOf(svcs[1..], j - 1)
  {
  }

  /** How many records the first `i` user nodes contribute. */
  function RecordsBefore(us: seq<UserNode>, i: nat): nat
    requires i <= |us|
    decreases i
  {
    if i == 0 then 0
    else (if us[0].profile.Some? then RankOf(us[0].services, |us[0].services|) else 0) + RecordsBefore(us[1..], i - 1)
  }

  /** Service `j` of user `i` is listed by the route: both documents exist. */
  predicate ListedAt(us: seq<UserNode>, i: int, j: int) {
    && 0 <= i < |us|
    && us[i].profile.Some?
    && 0 <= j < |us[i].services|
    && us[i].services[j].data.Some?
  }

  /** Where the record of service `j` of user `i` lands in the output. */
  function Position(us: seq<UserNode>, i: nat, j: nat): nat
    requires i < |us| && j <= |us[i].services|
  {
    RecordsBefore(us, i) + RankOf(us[i].services, j)
  }

  function ServiceRecords(u: UserNode, svcs: seq<ServiceNode>, feedback: seq<Doc<Feedback>>, lib: Library): (r: seq<ServiceRecord>)
    requires u.profile.Some?
    ensures |r| == RankOf(svcs, |svcs|)
    decreases |svcs|
  {
    if |svcs| == 0 then []
    else
      RankOfStep(svcs, |svcs|);
      (if svcs[0].data.Some? then [MakeRecord(u, svcs[0], feedback, lib)] else [])
      + ServiceRecords(u, svcs[1..], feedback, lib)
  }

  function UserRecords(u: UserNode, feedback: seq<Doc<Feedback>>, lib: Library): seq<ServiceRecord> {
    if u.profile.None? then [] else ServiceRecords(u, u.services, feedback, lib)
  }

  function IndexUsers(us: seq<UserNode>, feedback: seq<Doc<Feedback>>, lib: Library): (r: seq<ServiceRecord>)
    ensures |r| == RecordsBefore(us, |us|)
    decreases |us|
  {
    if |us| == 0 then [] else UserRecords(us[0], feedback, lib) + IndexUsers(us[1..], feedback, lib)
  }

  /** The `services` list `index()` renders the page from, when it gets that far
      (`IndexPage`): one record per listed (user, service) pair. */
  function Index(s: Store, lib: Library): (r: seq<ServiceRecord>)
    ensures |r| == RecordsBefore(s.users, |s.users|)
  {
    IndexUsers(s.users, s.feedback, lib)
  }

  // ---------------------------------------------------------------------------
  // The route: a missing timeline field aborts the page
  // ---------------------------------------------------------------------------

  /** What the `/` route answers: the page rendered from the records, or the
      exception that aborts it. */
  datatype Page = Rendered(services: seq<ServiceRecord>) | Failed(fault: Fault)

  predicate EntriesComplete(entries: seq<Doc<TimelineEntry>>) {
    forall k :: 0 <= k < |entries| ==> EntryComplete(entries[k].data)
  }

  /** The route gets through the timelines of these services: each one it lists
      has only complete entries. */
  predicate ServicesComplete(svcs: seq<ServiceNode>)
    decreases |svcs|
  {
    |svcs| == 0 || ((svcs[0].data.Some? ==> EntriesComplete(svcs[0].timeline)) && ServicesComplete(svcs[1..]))
  }

  /** The route gets through the timelines of every user it lists. */
  predicate UsersComplete(us: seq<UserNode>)
    decreases |us|
  {
    |us| == 0 || ((us[0].profile.Some? ==> ServicesComplete(us[0].services)) && UsersComplete(us[1..]))
  }

  /** Some listed service has a timeline entry that lacks `status` or `completedAt`. */
  ghost predicate SomeEntryIncomplete(us: seq<UserNode>) {
    exists i, j, k :: ListedAt(us, i, j) && 0 <= k < |us[i].services[j].timeline| &&
      !EntryComplete(us[i].services[j].timeline[k].data)
  }

  lemma {:induction false} ServicesCompleteIff(svcs: seq<ServiceNode>)
    ensures ServicesComplete(svcs) <==>
      forall j, k :: 0 <= j < |svcs| && svcs[j].data.Some? && 0 <= k < |svcs[j].timeline| ==>
        EntryComplete(svcs[j].timeline[k].data)
    decreases |svcs|
  {
    if |svcs| > 0 {
      ServicesCompleteIff(svcs[1..]);
      assert forall j :: 1 <= j < |svcs| ==> svcs[j] == svcs[1..][j - 1];
    }
  }

  lemma {:induction false} UsersCompleteIff(us: seq<UserNode>)
    ensures UsersComplete(us) <==> !SomeEntryIncomplete(us)
    decreases |us|
  {
    if |us| > 0 {
      UsersCompleteIff(us[1..]);
      ServicesCompleteIff(us[0].services);
      if SomeEntryIncomplete(us) {
        var i, j, k :| ListedAt(us, i, j) && 0 <= k < |us[i].services[j].timeline| &&
          !EntryComplete(us[i].services[j].timeline[k].data);
        if i > 0 {
          assert us[1..][i - 1] == us[i];
          assert ListedAt(us[1..], i - 1, j);
        }
      }
      if SomeEntryIncomplete(us[1..]) {
        var i, j, k :| ListedAt(us[1..], i, j) && 0 <= k < |us[1..][i].services[j].timeline| &&
          !EntryComplete(us[1..][i].services[j].timeline[k].data);
        assert us[1..][i] == us[i + 1];
        assert ListedAt(us, i + 1, j);
      }
    }
  }

  /** `index()`: the dict comprehension over a timeline reads both fields with the
      snapshot's `get`, so one listed entry without them aborts the whole page
      with a 500; otherwise the page shows the records of every listed pair. */
  function IndexPage(s: Store, lib: Library): (r: Page)
    ensures r.Failed? <==> SomeEntryIncomplete(s.users)
    ensures r.Failed? ==> r.fault == MissingField
    ensures r.Rendered? ==> r.services == Index(s, lib)
  {
    UsersCompleteIff(s.users);
    if UsersComplete(s.users) then Rendered(Index(s, lib)) else Failed(MissingField)
  }

  /** On a rendered page, entry `k` of a listed service is shown in that service's
      record with its own `status`, and its `completedAt` through both formatters. */
  lemma IndexPageShowsEntry(s: Store, lib: Library, i: nat, j: nat, k: nat)
    requires IndexPage(s, lib).Rendered?
    requires ListedAt(s.users, i, j) && k < |s.users[i].services[j].timeline|
    ensures Position(s.users, i, j) < |IndexPage(s, lib).services|
    ensures var e := s.users[i].services[j].timeline[k];
      var rec := IndexPage(s, lib).services[Position(s.users, i, j)];
      && rec.uid == s.users[i].id
      && rec.id == s.users[i].services[j].id
      && k < |rec.timeline|
      && e.data.status.Some? && e.data.completedAt.Some?
      && rec.timeline[k] == (e.id, TimelineView(e.data.status.value, ToInputValue(e.data.completedAt.value, lib),
                                                 ToMalaysiaStr(e.data.completedAt.value, lib)))
  {
    IndexRecordAt(s, lib, i, j);
    RecordContents(s.users[i], s.users[i].services[j], s.feedback, lib);
    var e := s.users[i].services[j].timeline[k];
    assert EntryComplete(e.data);
  }

  /** The records of a service list: the first node's record, if it is listed, then the rest. */
  lemma ServiceRecordsStep(u: UserNode, svcs: seq<ServiceNode>, feedback: seq<Doc<Feedback>>, lib: Library)
    requires u.profile.Some? && |svcs| > 0
    ensures ServiceRecords(u, svcs, feedback, lib) ==
      (if svcs[0].data.Some? then [MakeRecord(u, svcs[0], feedback, lib)] else []) + ServiceRecords(u, svcs[1..], feedback, lib)
  {
  }

  /** A listed first service has the first record. */
  lemma ServiceRecordsAtFirst(u: UserNode, svcs: seq<ServiceNode>, feedback: seq<Doc<Feedback>>, lib: Library)
    requires u.profile.Some? && |svcs| > 0 && svcs[0].data.Some?
    ensures RankOf(svcs, 0) == 0 < |ServiceRecords(u, svcs, feedback, lib)|
    ensures ServiceRecords(u, svcs, feedback, lib)[0] == MakeRecord(u, svcs[0], feedback, lib)
  {
    var rest := ServiceRecords(u, svcs[1..], feedback, lib);
    assert ServiceRecords(u, svcs, feedback, lib) == [MakeRecord(u, svcs[0], feedback, lib)] + rest;
    ConcatLeft([MakeRecord(u, svcs[0], feedback, lib)], rest, 0);
  }

  lemma {:induction false} ServiceRecordsAt(u: UserNode, svcs: seq<ServiceNode>, feedback: seq<Doc<Feedback>>, lib: Library, j: nat)
    requires u.profile.Some? && j < |svcs| && svcs[j].data.Some?
    ensures RankOf(svcs, j) < |ServiceRecords(u, svcs, feedback, lib)|
    ensures ServiceRecords(u, svcs, feedback, lib)[RankOf(svcs, j)] == MakeRecord(u, svcs[j], feedback, lib)
    decreases j
  {
    if j == 0 {
      ServiceRecordsAtFirst(u, svcs, feedback, lib);
    } else {
      TailAt(svcs, j);
      ServiceRecordsAt(u, svcs[1..], feedback, lib, j - 1);
      RankOfStep(svcs, j);
      ServiceRecordsStep(u, svcs, feedback, lib);
      var first := if svcs[0].data.Some? then [MakeRecord(u, svcs[0], feedback, lib)] else [];
      var rest := ServiceRecords(u, svcs[1..], feedback, lib);
      ConcatRight(first, rest, RankOf(svcs[1..], j - 1));
      assert ServiceRecords(u, svcs, feedback, lib)[RankOf(svcs, j)] == rest[RankOf(svcs[1..], j - 1)];
    }
  }

  /** Past the first user node, a position is that node's record count plus the
      position among the remaining nodes. */
  lemma PositionStep(us: seq<UserNode>, feedback: seq<Doc<Feedback>>, lib: Library, i: nat, j: nat)
    requires 0 < i < |us| && j <= |us[i].services|
    ensures us[1..][i - 1] == us[i]
    ensures Position(us, i, j) == |UserRecords(us[0], feedback, lib)| + Position(us[1..], i - 1, j)
  {
  }

  /** The records of the first user node open the list. */
  lemma IndexUsersAtFirst(us: seq<UserNode>, feedback: seq<Doc<Feedback>>, lib: Library, j: nat)
    requires ListedAt(us, 0, j)
    ensures Position(us, 0, j) < |IndexUsers(us, feedback, lib)|
    ensures IndexUsers(us, feedback, lib)[Position(us, 0, j)] == MakeRecord(us[0], us[0].services[j], feedback, lib)
  {
    var head := ServiceRecords(us[0], us[0].services, feedback, lib);
    assert IndexUsers(us, feedback, lib) == head + IndexUsers(us[1..], feedback, lib);
    assert Position(us, 0, j) == RankOf(us[0].services, j);
    ServiceRecordsAt(us[0], us[0].services, feedback, lib, j);
    ConcatLeft(head, IndexUsers(us[1..], feedback, lib), RankOf(us[0].services, j));
  }

  lemma {:induction false} IndexUsersAt(us: seq<UserNode>, feedback: seq<Doc<Feedback>>, lib: Library, i: nat, j: nat)
    requires ListedAt(us, i, j)
    ensures Position(us, i, j) < |IndexUsers(us, feedback, lib)|
    ensures IndexUsers(us, feedback, lib)[Position(us, i, j)] == MakeRecord(us[i], us[i].services[j], feedback, lib)
    decreases i
  {
    if i == 0 {
      IndexUsersAtFirst(us, feedback, lib, j);
    } else {
      var head, tail := UserRecords(us[0], feedback, lib), IndexUsers(us[1..], feedback, lib);
      assert IndexUsers(us, feedback, lib) == head + tail;
      PositionStep(us, feedback, lib, i, j);
      IndexUsersAt(us[1..], feedback, lib, i - 1, j);
      ConcatRight(head, tail, Position(us[1..], i - 1, j));
    }
  }

  /** Every listed (user, service) pair has its record, at its position. */
  lemma IndexRecordAt(s: Store, lib: Library, i: nat, j: nat)
    requires ListedAt(s.users, i, j)
    ensures Position(s.users, i, j) < |Index(s, lib)|
    ensures Index(s, lib)[Position(s.users, i, j)] == MakeRecord(s.users[i], s.users[i].services[j], s.feedback, lib)
    ensures Index(s, lib)[Position(s.users, i, j)].uid == s.users[i].id
    ensures Index(s, lib)[Position(s.users, i, j)].id == s.users[i].services[j].id
  {
    IndexUsersAt(s.users, s.feedback, lib, i, j);
  }

  /** A listed service counts towards the rank of every later position. */
  lemma {:induction false} RankStrict(svcs: seq<ServiceNode>, j: nat, j': nat)
    requires j < j' <= |svcs| && svcs[j].data.Some?
    ensures RankOf(svcs, j) < RankOf(svcs, j')
    decreases j
  {
    if j == 0 {
      RankMonotone(svcs[1..], 0, j' - 1);
    } else {
      RankStrict(svcs[1..], j - 1, j' - 1);
    }
  }

  lemma {:induction false} RankMonotone(svcs: seq<ServiceNode>, j: nat, j': nat)
    requires j <= j' <= |svcs|
    ensures RankOf(svcs, j) <= RankOf(svcs, j')
    decreases j'
  {
    if j > 0 {
      RankMonotone(svcs[1..], j - 1, j' - 1);
    } else if j' > 0 {
      RankMonotone(svcs[1..], 0, j' - 1);
    }
  }

  lemma {:induction false} RecordsBeforeMonotone(us: seq<UserNode>, i: nat, i': nat)
    requires i <= i' <= |us|
    ensures RecordsBefore(us, i) <= RecordsBefore(us, i')
    decreases i'
  {
    if i > 0 {
      RecordsBeforeMonotone(us[1..], i - 1, i' - 1);
    } else if i' > 0 {
      RecordsBeforeMonotone(us[1..], 0, i' - 1);
    }
  }

  /** The records of one user all come before those of any later user. */
  lemma {:induction false} PositionBeforeNextUser(us: seq<UserNode>, i: nat, j: nat, i': nat)
    requires ListedAt(us, i, j) && i < i' <= |us|
    ensures Position(us, i, j) < RecordsBefore(us, i')
    decreases i
  {
    if i == 0 {
      RankStrict(us[0].services, j, |us[0].services|);
      RecordsBeforeMonotone(us[1..], 0, i' - 1);
    } else {
      PositionBeforeNextUser(us[1..], i - 1, j, i' - 1);
    }
  }

  /** Records come out in user-then-service order. */
  lemma IndexOrder(us: seq<UserNode>, i: nat, j: nat, i': nat, j': nat)
    requires ListedAt(us, i, j) && ListedAt(us, i', j')
    requires i < i' || (i == i' && j < j')
    ensures Position(us, i, j) < Position(us, i', j')
  {
    if i < i' {
      PositionBeforeNextUser(us, i, j, i');
    } else {
      RankStrict(us[i].services, j, j');
    }
  }

  lemma {:induction false} ServiceRecordsCover(u: UserNode, svcs: seq<ServiceNode>, feedback: seq<Doc<Feedback>>, lib: Library, k: nat)
    requires u.profile.Some? && k < |ServiceRecords(u, svcs, feedback, lib)|
    ensures exists j :: 0 <= j < |svcs| && svcs[j].data.Some? && k == RankOf(svcs, j)
    decreases |svcs|
  {
    if svcs[0].data.Some? && k == 0 {
      assert RankOf(svcs, 0) == 0;
    } else {
      var k' := if svcs[0].data.Some? then k - 1 else k;
      ServiceRecordsCover(u, svcs[1..], feedback, lib, k');
      var j' :| 0 <= j' < |svcs[1..]| && svcs[1..][j'].data.Some? && k' == RankOf(svcs[1..], j');
      assert svcs[j' + 1] == svcs[1..][j'];
      assert RankOf(svcs, j' + 1) == k;
    }
  }

  lemma {:induction false} IndexUsersCover(us: seq<UserNode>, feedback: seq<Doc<Feedback>>, lib: Library, k: nat)
    requires k < |IndexUsers(us, feedback, lib)|
    ensures exists i, j :: ListedAt(us, i, j) && k == Position(us, i, j)
    decreases |us|
  {
    var head := UserRecords(us[0], feedback, lib);
    if k < |head| {
      ServiceRecordsCover(us[0], us[0].services, feedback, lib, k);
      var j :| 0 <= j < |us[0].services| && us[0].services[j].data.Some? && k == RankOf(us[0].services, j);
      assert ListedAt(us, 0, j) && k == Position(us, 0, j);
    } else {
      IndexUsersCover(us[1..], feedback, lib, k - |head|);
      var i', j :| ListedAt(us[1..], i', j) && k - |head| == Position(us[1..], i', j);
      assert us[1..][i'] == us[i' + 1];
      assert ListedAt(us, i' + 1, j) && k == Position(us, i' + 1, j);
    }
  }

  /** Every record of the output is the record of some listed (user, service) pair, at that pair's position. */
  lemma IndexCover(s: Store, lib: Library, k: nat)
    requires k < |Index(s, lib)|
    ensures exists i, j :: ListedAt(s.users, i, j) && k == Position(s.users, i, j) &&
              Index(s, lib)[k] == MakeRecord(s.users[i], s.users[i].services[j], s.feedback, lib)
  {
    IndexUsersCover(s.users, s.feedback, lib, k);
    var i, j :| ListedAt(s.users, i, j) && k == Position(s.users, i, j);
    IndexUsersAt(s.users, s.feedback, lib, i, j);
  }

  /** The output has one record per listed (user, service) pair: as many records as pairs. */
  lemma {:induction false} IndexCount(s: Store, lib: Library)
    ensures |Index(s, lib)| == RecordsBefore(s.users, |s.users|)
    ensures forall i, j :: ListedAt(s.users, i, j) ==> Position(s.users, i, j) < |Index(s, lib)|
  {
    forall i, j | ListedAt(s.users, i, j)
      ensures Position(s.users, i, j) < |Index(s, lib)|
    {
      IndexUsersAt(s.users, s.feedback, lib, i, j);
    }
  }

  // ---------------------------------------------------------------------------
  // Stores that differ only in their status timelines
  // ---------------------------------------------------------------------------

  /** `us'` lists the same users, services and vehicles as `us`, in the same
      order; timelines and invoices may differ. */
  predicate SameListing(us: seq<UserNode>, us': seq<UserNode>) {
    && |us'| == |us|
    && forall i :: 0 <= i < |us| ==>
      && us'[i].id == us[i].id
      && us'[i].profile == us[i].profile
      && us'[i].vehicles == us[i].vehicles
      && |us'[i].services| == |us[i].services|
      && forall j :: 0 <= j < |us[i].services| ==>
        us'[i].services[j].id == us[i].services[j].id && us'[i].services[j].data == us[i].services[j].data
  }

  /** As `SameListing`, and the invoices are the same too: only timelines differ. */
  predicate SameBesidesTimelines(us: seq<UserNode>, us': seq<UserNode>) {
    && SameListing(us, us')
    && forall i :: 0 <= i < |us| ==> us'[i].invoices == us[i].invoices
  }

  lemma {:induction false} RankOfSame(svcs: seq<ServiceNode>, svcs': seq<ServiceNode>, j: nat)
    requires j <= |svcs| == |svcs'|
    requires forall k :: 0 <= k < |svcs| ==> svcs'[k].data == svcs[k].data
    ensures RankOf(svcs', j) == RankOf(svcs, j)
    decreases j
  {
    if j > 0 {
      RankOfSame(svcs[1..], svcs'[1..], j - 1);
    }
  }

  lemma {:induction false} RecordsBeforeSame(us: seq<UserNode>, us': seq<UserNode>, i: nat)
    requires i <= |us|
    requires SameListing(us, us')
    ensures RecordsBefore(us', i) == RecordsBefore(us, i)
    decreases i
  {
    if i > 0 {
      RankOfSame(us[0].services, us'[0].services, |us[0].services|);
      assert SameListing(us[1..], us'[1..]) by {
        forall i' | 0 <= i' < |us| - 1
          ensures us'[1..][i'] == us'[i' + 1] && us[1..][i'] == us[i' + 1]
        {
        }
      }
      RecordsBeforeSame(us[1..], us'[1..], i - 1);
    }
  }

  /** Stores with the same listing have records in the same places. */
  lemma IndexSameListing(s: Store, s': Store, lib: Library)
    requires SameListing(s.users, s'.users)
    ensures |Index(s', lib)| == |Index(s, lib)|
    ensures forall i, j :: ListedAt(s.users, i, j) ==>
      ListedAt(s'.users, i, j) && Position(s'.users, i, j) == Position(s.users, i, j)
  {
    RecordsBeforeSame(s.users, s'.users, |s.users|);
    forall i, j | ListedAt(s.users, i, j)
      ensures ListedAt(s'.users, i, j) && Position(s'.users, i, j) == Position(s.users, i, j)
    {
      RecordsBeforeSame(s.users, s'.users, i);
      RankOfSame(s.users[i].services, s'.users[i].services, j);
    }
  }

  /** Changing only timelines moves no record and changes nothing in a record
      but its timeline. */
  lemma IndexBesidesTimelines(s: Store, s': Store, lib: Library)
    requires s'.feedback == s.feedback
    requires SameBesidesTimelines(s.users, s'.users)
    ensures |Index(s', lib)| == |Index(s, lib)|
    ensures forall k :: 0 <= k < |Index(s, lib)| ==>
      Index(s', lib)[k] == Index(s, lib)[k].(timeline := Index(s', lib)[k].timeline)
  {
    IndexSameListing(s, s', lib);
    forall k | 0 <= k < |Index(s, lib)|
      ensures Index(s', lib)[k] == Index(s, lib)[k].(timeline := Index(s', lib)[k].timeline)
    {
      IndexCover(s, lib, k);
      var i, j :| ListedAt(s.users, i, j) && k == Position(s.users, i, j) &&
        Index(s, lib)[k] == MakeRecord(s.users[i], s.users[i].services[j], s.feedback, lib);
      IndexRecordAt(s', lib, i, j);
    }
  }

  /** The records of two runs of user nodes, one after the other, are their records one after the other. */
  lemma {:induction false} IndexUsersAppend(us: seq<UserNode>, vs: seq<UserNode>, feedback: seq<Doc<Feedback>>, lib: Library)
    ensures IndexUsers(us + vs, feedback, lib) == IndexUsers(us, feedback, lib) + IndexUsers(vs, feedback, lib)
    decreases |us|
  {
    if |us| == 0 {
      assert us + vs == vs;
    } else {
      assert (us + vs)[0] == us[0];
      assert (us + vs)[1..] == us[1..] + vs;
      IndexUsersAppend(us[1..], vs, feedback, lib);
    }
  }
}

=== FILE: replies.dfy ===
/** What a mutating route hands back: its HTTP response and the store after it ran. */
module Replies {
  import opened DocStore

  /** An exception the route does not catch; Flask answers it with a 500 page. */
  datatype Fault = MalformedDateTime | MalformedPrice | DocumentNotFound | MissingField

  datatype Response =
    /** `jsonify({"success": ..., "message": ...})`, with its status code */
    | Json(status: nat, success: bool, message: string)
    | ServerError(fault: Fault)

  datatype Reply = Reply(response: Response, store: Store)
}

=== FILE: runtime.dfy ===
/** What the route code sees of the outside world: the values a document field
    can hold, and the Python library behaviour it calls into, which the model
    leaves uninterpreted by passing it in as a `Library` value. */
module Runtime {
  import opened Basics

  /** An absolute instant, in microseconds since the Unix epoch, UTC. */
  datatype Instant = Instant(micros: int)

  /** A zone-free wall-clock reading (a naive `datetime`), in microseconds since 1970-01-01T00:00. */
  datatype WallClock = WallClock(micros: int)

  /** A document field as the store client hands it to Python. Where the code
      reads a field through `to_dict()` and `dict.get`, a missing field reads as
      Null too; the status-timeline reads, which raise instead, keep the absent
      case apart (`DocStore.TimelineEntry`). */
  datatype Value =
    | Null
    | Bool(b: bool)
    | Int(i: int)
    | Double(x: real)
    | Str(s: string)
    | Time(t: Instant)
    /** arrays, maps, references, bytes and geo points: only their truth value and `str()` matter here */
    | Other(truthy: bool, repr: string)

  /** Python truthiness (`if v:`). A timestamp is always true. */
  predicate Truthy(v: Value) {
    match v
    case Null => false
    case Bool(b) => b
    case Int(i) => i != 0
    case Double(x) => x != 0.0
    case Str(s) => s != ""
    case Time(_) => true
    case Other(t, _) => t
  }

  /** The library calls the routes make and the model does not interpret. */
  datatype Library = Library(
    /** `strftime("%d %b %Y, %I:%M %p")` of a wall-clock reading */
    displayFormat: WallClock -> string,
    /** `strftime("%Y-%m-%dT%H:%M")` of a wall-clock reading */
    inputFormat: WallClock -> string,
    /** `datetime.fromisoformat` as the routes use it: the naive datetime it
        returns, localized; None where it raises, where it returns an aware
        datetime (one with a UTC offset), which `localize` then rejects, and
        where `localize` overflows (any time on 0001-01-01 or 9999-12-31) */
    fromIsoFormat: string -> Option<WallClock>,
    /** `float(s)`, None where it raises */
    parseFloat: string -> Option<real>,
    /** `str(x)` of a float */
    floatRepr: real -> string)

  function DigitChar(d: nat): char
    requires d < 10
  {
    "0123456789"[d]
  }

  function Digits(n: nat): string
    decreases n
  {
    if n < 10 then [DigitChar(n)] else Digits(n / 10) + [DigitChar(n % 10)]
  }

  /** `str(i)` of a Python int. */
  function DecimalString(i: int): string {
    if i < 0 then "-" + Digits(-i) else Digits(i)
  }

  /** `str(v)` of any field value other than a timestamp. */
  function PyStr(v: Value, lib: Library): string
    requires !v.Time?
  {
    match v
    case Null => "None"
    case Bool(b) => if b then "True" else "False"
    case Int(i) => DecimalString(i)
    case Double(x) => lib.floatRepr(x)
    case Str(s) => s
    case Other(_, repr) => repr
  }
}

=== FILE: store.dfy ===
/** An in-memory picture of the document store the dashboard reads and writes:
    `users/{uid}` with its `services` (each with a `statusTimeline`),
    `vehicles` and `invoices` sub-collections, and the global `feedback`
    collection. The order of each sequence is the store's iteration order. */
module DocStore {
  import opened Basics
  import opened Runtime

  /** A document: its store-assigned id and its fields. */
  datatype Doc<T> = Doc(id: string, data: T)

  datatype User = User(fullName: Value, email: Value)

  datatype Vehicle = Vehicle(model: Value, plateNumber: Value)

  datatype Service = Service(
    vehicleId: Value,
    workshopId: Value,
    bookedDateTime: Value,
    createdAt: Value,
    notes: Value)

  /** A status-timeline entry. The route reads these two fields with the
      snapshot's own `get`, which raises for a field the document lacks, so
      each is None when absent and Some (possibly `Some(Null)`) when present. */
  datatype TimelineEntry = TimelineEntry(status: Option<Value>, completedAt: Option<Value>)

  /** Both fields the dashboard reads from a timeline entry are present. */
  predicate EntryComplete(e: TimelineEntry) {
    e.status.Some? && e.completedAt.Some?
  }

  datatype Invoice = Invoice(
    vehicleId: Value,
    serviceId: Value,
    workshopId: Value,
    price: Value,
    paid: Value,
    issuedAt: Value,
    createdAt: Value,
    updatedAt: Value)

  datatype Feedback = Feedback(
    serviceId: Value,
    email: Value,
    rating: Value,
    message: Value,
    createdAt: Value)

  /** `users/{uid}/services/{id}`. A sub-collection can exist under a document
      that does not: `data` is None when the service document itself is absent. */
  datatype ServiceNode = ServiceNode(
    id: string,
    data: Option<Service>,
    timeline: seq<Doc<TimelineEntry>>)

  /** `users/{uid}`. `profile` is None when only sub-collections exist under the
      path; listing the `users` collection does not return such a node. */
  datatype UserNode = UserNode(
    id: string,
    profile: Option<User>,
    services: seq<ServiceNode>,
    vehicles: seq<Doc<Vehicle>>,
    invoices: seq<Doc<Invoice>>)

  datatype Store = Store(users: seq<UserNode>, feedback: seq<Doc<Feedback>>)

  predicate DistinctIds<T>(docs: seq<Doc<T>>) {
    forall i, j :: 0 <= i < j < |docs| ==> docs[i].id != docs[j].id
  }

  predicate NodeWellFormed(u: UserNode) {
    && (forall j, k :: 0 <= j < k < |u.services| ==> u.services[j].id != u.services[k].id)
    && (forall j :: 0 <= j < |u.services| ==> DistinctIds(u.services[j].timeline))
    && DistinctIds(u.vehicles)
    && DistinctIds(u.invoices)
  }

  /** Document ids are unique within each collection, as the store guarantees. */
  predicate WellFormed(s: Store) {
    && (forall i, j :: 0 <= i < j < |s.users| ==> s.users[i].id != s.users[j].id)
    && (forall i :: 0 <= i < |s.users| ==> NodeWellFormed(s.users[i]))
    && DistinctIds(s.feedback)
  }

  /** `db.collection("users").document(uid)`: the node at that path, if any. */
  function FindUser(s: Store, uid: string): (r: Option<nat>)
    ensures r.Some? ==> r.value < |s.users| && s.users[r.value].id == uid
    ensures r.None? <==> forall i :: 0 <= i < |s.users| ==> s.users[i].id != uid
  {
    FirstIndex(s.users, (u: UserNode) => u.id == uid)
  }

  /** In a well-formed store the node found for `uid` is the only one with that id. */
  lemma FindUserUnique(s: Store, uid: string, i: nat)
    requires WellFormed(s)
    requires i < |s.users| && s.users[i].id == uid
    ensures FindUser(s, uid) == Some(i)
  {
  }

  /** Stores whose nodes carry the same ids in the same order find a uid at the same place. */
  lemma FindUserSameIds(s: Store, s': Store, uid: string)
    requires |s'.users| == |s.users|
    requires forall i :: 0 <= i < |s.users| ==> s'.users[i].id == s.users[i].id
    ensures FindUser(s', uid) == FindUser(s, uid)
  {
    FirstIndexAgrees(s.users, (u: UserNode) => u.id == uid, s'.users, (u: UserNode) => u.id == uid);
  }

  /** `.collection("services").document(sid)` under a user node. */
  function FindService(u: UserNode, sid: string): (r: Option<nat>)
    ensures r.Some? ==> r.value < |u.services| && u.services[r.value].id == sid
    ensures r.None? <==> forall j :: 0 <= j < |u.services| ==> u.services[j].id != sid
  {
    FirstIndex(u.services, (n: ServiceNode) => n.id == sid)
  }

  lemma FindServiceSameIds(u: UserNode, u': UserNode, sid: string)
    requires |u'.services| == |u.services|
    requires forall j :: 0 <= j < |u.services| ==> u'.services[j].id == u.services[j].id
    ensures FindService(u', sid) == FindService(u, sid)
  {
    FirstIndexAgrees(u.services, (n: ServiceNode) => n.id == sid, u'.services, (n: ServiceNode) => n.id == sid);
  }

  /** `.document(vehicle_id)` in a `vehicles` collection; only a string can name a document. */
  function FindVehicle(vehicles: seq<Doc<Vehicle>>, vehicleId: Value): (r: Option<nat>)
    ensures r.Some? ==> IsFirst(vehicles, (d: Doc<Vehicle>) => Str(d.id) == vehicleId, r.value)
    ensures r.None? <==> forall k :: 0 <= k < |vehicles| ==> Str(vehicles[k].id) != vehicleId
  {
    FirstIndex(vehicles, (d: Doc<Vehicle>) => Str(d.id) == vehicleId)
  }

  /** The equality filter `where("serviceId", "==", sid)` on invoices. */
  predicate InvoiceMatches(d: Doc<Invoice>, sid: string) {
    d.data.serviceId == Str(sid)
  }

  /** `where("serviceId", "==", sid).limit(1)` on an invoice collection. */
  function FirstInvoice(invoices: seq<Doc<Invoice>>, sid: string): (r: Option<nat>)
    ensures r.Some? ==> IsFirst(invoices, (d: Doc<Invoice>) => InvoiceMatches(d, sid), r.value)
    ensures r.None? <==> forall k :: 0 <= k < |invoices| ==> !InvoiceMatches(invoices[k], sid)
  {
    FirstIndex(invoices, (d: Doc<Invoice>) => InvoiceMatches(d, sid))
  }

  /** The `invoices` collection under `users/{uid}`, empty when nothing is stored there. */
  function InvoicesOf(s: Store, uid: string): seq<Doc<Invoice>> {
    match FindUser(s, uid)
    case None => []
    case Some(i) => s.users[i].invoices
  }

  /** The fields of `users/{uid}/services/{sid}`, or None when that document does not exist. */
  function ServiceOf(s: Store, uid: string, sid: string): Option<Service> {
    match FindUser(s, uid)
    case None => None
    case Some(i) =>
      match FindService(s.users[i], sid)
      case None => None
      case Some(j) => s.users[i].services[j].data
  }

  /** No two invoices of one collection carry the same string `serviceId`. */
  predicate InvoicesUnique(invoices: seq<Doc<Invoice>>) {
    forall i, j :: 0 <= i < j < |invoices| && invoices[i].data.serviceId.Str? ==>
      invoices[i].data.serviceId != invoices[j].data.serviceId
  }

  /** The application-level rule: at most one invoice per service in each user's invoices. */
  predicate OneInvoicePerService(s: Store) {
    forall i :: 0 <= i < |s.users| ==> InvoicesUnique(s.users[i].invoices)
  }

  /** Under the rule, an equality query for a service finds at most one invoice. */
  lemma UniqueInvoiceQuery(invoices: seq<Doc<Invoice>>, sid: string, j: nat, k: nat)
    requires InvoicesUnique(invoices)
    requires j < |invoices| && k < |invoices|
    requires InvoiceMatches(invoices[j], sid) && InvoiceMatches(invoices[k], sid)
    ensures j == k
  {
  }
}

=== FILE: time_format.dfy ===
/** The two formatters of the dashboard, `to_malaysia_str` and `to_input_value`,
    and the fixed UTC+8 shift between stored instants and Malaysian wall-clock time. */
module TimeFormat {
  import opened Basics
  import opened Runtime

  const MinuteMicros: int := 60_000_000

  /** Asia/Kuala_Lumpur: eight hours ahead of UTC, no daylight saving. */
  const MalaysiaOffsetMicros: int := 8 * 60 * MinuteMicros

  /** `dt.astimezone(MALAYSIA_TZ)`, read as a wall clock. */
  function ToMalaysia(t: Instant): WallClock {
    WallClock(t.micros + MalaysiaOffsetMicros)
  }

  /** `MALAYSIA_TZ.localize(naive).astimezone(pytz.UTC)`: the instant at which
      Malaysian clocks show `w`. */
  function Localize(w: WallClock): (t: Instant)
    ensures ToMalaysia(t) == w
  {
    Instant(w.micros - MalaysiaOffsetMicros)
  }

  lemma LocalizeToMalaysia(t: Instant)
    ensures Localize(ToMalaysia(t)) == t
  {
  }

  /** A wall-clock reading with its seconds and microseconds dropped. */
  function FloorMinute(w: WallClock): WallClock {
    WallClock(w.micros - w.micros % MinuteMicros)
  }

  /** An instant with its seconds and microseconds dropped. */
  function FloorMinuteInstant(t: Instant): Instant {
    Instant(t.micros - t.micros % MinuteMicros)
  }

  const DayMicros: int := 24 * 60 * MinuteMicros

  /** The span of Python's `datetime`, years 1 to 9999: 0001-01-01T00:00 is
      719162 days before 1970-01-01T00:00, and 10000-01-01T00:00 is 2932897 days after. */
  predicate InDatetimeRange(w: WallClock) {
    -719162 * DayMicros <= w.micros < 2932897 * DayMicros
  }

  /** The wall clocks pytz's `localize` accepts for Asia/Kuala_Lumpur: it looks
      one day either side of its argument, so it overflows on 0001-01-01 and on
      9999-12-31, and accepts every day in between. */
  predicate Localizable(w: WallClock) {
    -719161 * DayMicros <= w.micros < 2932896 * DayMicros
  }

  /** Years 1000 onwards, which `strftime("%Y")` writes with four digits on
      every platform; 1000-01-01T00:00 is 354285 days before 1970-01-01T00:00. */
  predicate FourDigitYear(w: WallClock) {
    -354285 * DayMicros <= w.micros
  }

  /** The laws of the library formatters that the round trip through the edit
      control relies on: `strftime("%Y-%m-%dT%H:%M")` never writes the empty
      string, which `fromisoformat` rejects; parsing and localizing reads back
      what it wrote, to the minute, on every day `localize` accepts with a
      four-digit year; and on the first and last day of the `datetime` range
      `localize` overflows, so the parse-and-localize step fails. */
  ghost predicate LawfulLibrary(lib: Library) {
    && lib.fromIsoFormat("") == None
    && (forall w :: InDatetimeRange(w) ==> lib.inputFormat(w) != "")
    && (forall w :: Localizable(w) && FourDigitYear(w) ==>
          lib.fromIsoFormat(lib.inputFormat(w)) == Some(FloorMinute(w)))
    && (forall w :: InDatetimeRange(w) && !Localizable(w) ==> lib.fromIsoFormat(lib.inputFormat(w)) == None)
  }

  /** `to_malaysia_str`: the display string of a field, with "-" for a missing
      or false value and `str()` for a present value that is not a timestamp. */
  function ToMalaysiaStr(v: Value, lib: Library): (r: string)
    ensures !Truthy(v) ==> r == "-"
    ensures v.Str? && v.s != "" ==> r == v.s
    ensures Truthy(v) && !v.Time? ==> r == PyStr(v, lib)
    ensures v.Time? ==> r == lib.displayFormat(ToMalaysia(v.t))
  {
    if !Truthy(v) then "-"
    else if !v.Time? then PyStr(v, lib)
    else lib.displayFormat(ToMalaysia(v.t))
  }

  /** `to_input_value`: the value of a `datetime-local` edit control, empty for
      anything that is not a timestamp. */
  function ToInputValue(v: Value, lib: Library): (r: string)
    ensures !Truthy(v) ==> r == ""
    ensures !v.Time? ==> r == ""
    ensures v.Time? ==> r == lib.inputFormat(ToMalaysia(v.t))
  {
    if !Truthy(v) then ""
    else if !v.Time? then ""
    else lib.inputFormat(ToMalaysia(v.t))
  }

  /** With a lawful library the edit control is empty exactly when the field
      holds no timestamp. Its value parses back to the Malaysian wall clock,
      floored to the minute, on every day `localize` accepts with a four-digit
      year, and fails to parse-and-localize on the range's first and last day. */
  lemma InputValueEmptyIffNoTimestamp(v: Value, lib: Library)
    requires LawfulLibrary(lib)
    requires v.Time? ==> InDatetimeRange(ToMalaysia(v.t))
    ensures ToInputValue(v, lib) == "" <==> !v.Time?
    ensures v.Time? && Localizable(ToMalaysia(v.t)) && FourDigitYear(ToMalaysia(v.t)) ==>
      lib.fromIsoFormat(ToInputValue(v, lib)) == Some(FloorMinute(ToMalaysia(v.t)))
    ensures v.Time? && !Localizable(ToMalaysia(v.t)) ==> lib.fromIsoFormat(ToInputValue(v, lib)) == None
  {
    if v.Time? {
      var w := ToMalaysia(v.t);
      assert lib.inputFormat(w) != "";
      if Localizable(w) && FourDigitYear(w) {
        assert lib.fromIsoFormat(lib.inputFormat(w)) == Some(FloorMinute(w));
      } else if !Localizable(w) {
        assert lib.fromIsoFormat(lib.inputFormat(w)) == None;
      }
    }
  }

  /** Adding whole minutes does not change the sub-minute remainder. */
  lemma {:induction false} ModShift(a: int, k: nat)
    ensures (a + k * MinuteMicros) % MinuteMicros == a % MinuteMicros
    decreases k
  {
    if k > 0 {
      var b := a + (k - 1) * MinuteMicros;
      ModShift(a, k - 1);
      assert a + k * MinuteMicros == b + MinuteMicros;
      assert (b + MinuteMicros) % MinuteMicros == b % MinuteMicros;
    }
  }

  /** Dropping the seconds commutes with the shift to Malaysian time, because the
      shift is a whole number of minutes. */
  lemma {:induction false} FloorMinuteCommutes(t: Instant)
    ensures Localize(FloorMinute(ToMalaysia(t))) == FloorMinuteInstant(t)
  {
    ModShift(t.micros, 480);
    assert MalaysiaOffsetMicros == 480 * MinuteMicros;
  }
}

=== FILE: update_status.dfy ===
/** The `/update/<uid>/<service_id>/<status_id>` route: it writes the
    `completedAt` field of one status-timeline entry and nothing else. */
module TimelineUpdate {
  import opened Basics
  import opened Runtime
  import opened TimeFormat
  import opened DocStore
  import opened Replies
  import opened Dashboard

  /** The position of `users/{uid}/services/{sid}/statusTimeline/{tid}` in a store. */
  datatype EntryPath = EntryPath(user: nat, service: nat, entry: nat)

  predicate ValidPath(s: Store, p: EntryPath) {
    && p.user < |s.users|
    && p.service < |s.users[p.user].services|
    && p.entry < |s.users[p.user].services[p.service].timeline|
  }

  function EntryAt(s: Store, p: EntryPath): Doc<TimelineEntry>
    requires ValidPath(s, p)
  {
    s.users[p.user].services[p.service].timeline[p.entry]
  }

  /** `p` is the path `users/{uid}/services/{sid}/statusTimeline/{tid}`. */
  predicate PathNames(s: Store, p: EntryPath, uid: string, sid: string, tid: string)
    requires ValidPath(s, p)
  {
    && s.users[p.user].id == uid
    && s.users[p.user].services[p.service].id == sid
    && EntryAt(s, p).id == tid
  }

  function FindEntry(n: ServiceNode, tid: string): (r: Option<nat>)
    ensures r.Some? ==> r.value < |n.timeline| && n.timeline[r.value].id == tid
    ensures r.None? <==> forall k :: 0 <= k < |n.timeline| ==> n.timeline[k].id != tid
  {
    FirstIndex(n.timeline, (d: Doc<TimelineEntry>) => d.id == tid)
  }

  /** The timeline entry document the route addresses, if it exists. */
  function Locate(s: Store, uid: string, sid: string, tid: string): (r: Option<EntryPath>)
    ensures r.Some? ==> ValidPath(s, r.value) && PathNames(s, r.value, uid, sid, tid)
  {
    match FindUser(s, uid)
    case None => None
    case Some(i) =>
      match FindService(s.users[i], sid)
      case None => None
      case Some(j) =>
        match FindEntry(s.users[i].services[j], tid)
        case None => None
        case Some(k) => Some(EntryPath(i, j, k))
  }

  /** In a well-formed store, an entry document that exists is the one the route finds. */
  lemma LocateFinds(s: Store, p: EntryPath, uid: string, sid: string, tid: string)
    requires WellFormed(s) && ValidPath(s, p) && PathNames(s, p, uid, sid, tid)
    ensures Locate(s, uid, sid, tid) == Some(p)
  {
    FindUserUnique(s, uid, p.user);
    var u := s.users[p.user];
    assert NodeWellFormed(u);
    var n := u.services[p.service];
    assert DistinctIds(n.timeline);
  }

  /** The value the route writes: null for an empty or absent form field,
      otherwise the instant at which Malaysian clocks show the given time;
      None where `fromisoformat` raises. */
  function CompletedAtValue(form: Option<string>, lib: Library): (r: Option<Value>)
    ensures (form.None? || form.value == "") ==> r == Some(Null)
    ensures form.Some? && form.value != "" ==> (r.None? <==> lib.fromIsoFormat(form.value).None?)
    ensures r.Some? && r.value != Null ==>
      && form.Some?
      && r.value.Time?
      && lib.fromIsoFormat(form.value) == Some(ToMalaysia(r.value.t))
    ensures form.Some? && form.value != "" && lib.fromIsoFormat(form.value).Some? ==>
      && r.Some?
      && r.value.Time?
      && ToMalaysia(r.value.t) == lib.fromIsoFormat(form.value).value
  {
    if form.None? || form.value == "" then Some(Null)
    else match lib.fromIsoFormat(form.value)
      case None => None
      case Some(w) => Some(Time(Localize(w)))
  }

  /** `s'` is `s` with the `completedAt` of the entry at `p` set to `v`, and nothing else changed. */
  predicate WritesOnlyCompletedAt(s: Store, s': Store, p: EntryPath, v: Value)
    requires ValidPath(s, p)
  {
    && s'.feedback == s.feedback
    && |s'.users| == |s.users|
    && (forall i :: 0 <= i < |s.users| && i != p.user ==> s'.users[i] == s.users[i])
    && var u, u' := s.users[p.user], s'.users[p.user];
    && u'.id == u.id
    && u'.profile == u.profile
    && u'.vehicles == u.vehicles
    && u'.invoices == u.invoices
    && |u'.services| == |u.services|
    && (forall j :: 0 <= j < |u.services| && j != p.service ==> u'.services[j] == u.services[j])
    && var n, n' := u.services[p.service], u'.services[p.service];
    && n'.id == n.id
    && n'.data == n.data
    && |n'.timeline| == |n.timeline|
    && (forall k :: 0 <= k < |n.timeline| && k != p.entry ==> n'.timeline[k] == n.timeline[k])
    && n'.timeline[p.entry].id == n.timeline[p.entry].id
    && n'.timeline[p.entry].data.status == n.timeline[p.entry].data.status
    && n'.timeline[p.entry].data.completedAt == Some(v)
  }

  /** `status_ref.update({"completedAt": v})` on an existing entry: the field is
      set, and added if the entry lacked it. */
  function SetCompletedAt(s: Store, p: EntryPath, v: Value): (r: Store)
    requires ValidPath(s, p)
    ensures ValidPath(r, p)
    ensures EntryAt(r, p).id == EntryAt(s, p).id
    ensures EntryAt(r, p).data == TimelineEntry(EntryAt(s, p).data.status, Some(v))
  {
    var u := s.users[p.user];
    var n := u.services[p.service];
    var e := n.timeline[p.entry];
    var n' := n.(timeline := n.timeline[p.entry := e.(data := e.data.(completedAt := Some(v)))]);
    s.(users := s.users[p.user := u.(services := u.services[p.service := n'])])
  }

  /** The update touches nothing but that one field. */
  lemma SetCompletedAtFrame(s: Store, p: EntryPath, v: Value)
    requires ValidPath(s, p)
    ensures WritesOnlyCompletedAt(s, SetCompletedAt(s, p, v), p, v)
  {
  }

  /** `update_status(uid, service_id, status_id)` with the form field `completedAt`.
      A malformed time raises before anything is written; so does `update` on an
      entry document that does not exist. */
  function UpdateStatus(s: Store, uid: string, sid: string, tid: string, form: Option<string>, lib: Library): (r: Reply)
    ensures CompletedAtValue(form, lib).None? ==> r == Reply(ServerError(MalformedDateTime), s)
    ensures CompletedAtValue(form, lib).Some? && Locate(s, uid, sid, tid).None? ==>
      r == Reply(ServerError(DocumentNotFound), s)
    ensures CompletedAtValue(form, lib).Some? && Locate(s, uid, sid, tid).Some? ==>
      && r.response == Json(200, true, "Saved successfully")
      && WritesOnlyCompletedAt(s, r.store, Locate(s, uid, sid, tid).value, CompletedAtValue(form, lib).value)
  {
    match CompletedAtValue(form, lib)
    case None => Reply(ServerError(MalformedDateTime), s)
    case Some(v) =>
      match Locate(s, uid, sid, tid)
      case None => Reply(ServerError(DocumentNotFound), s)
      case Some(p) => Reply(Json(200, true, "Saved successfully"), SetCompletedAt(s, p, v))
  }

  /** Writing a timeline entry keeps every id and touches no invoice. */
  lemma SetCompletedAtPreservesInvariants(s: Store, p: EntryPath, v: Value)
    requires ValidPath(s, p)
    requires WellFormed(s) && OneInvoicePerService(s)
    ensures WellFormed(SetCompletedAt(s, p, v)) && OneInvoicePerService(SetCompletedAt(s, p, v))
  {
    var s' := SetCompletedAt(s, p, v);
    SetCompletedAtFrame(s, p, v);
    assert forall i :: 0 <= i < |s.users| ==> s'.users[i].id == s.users[i].id;
    assert forall i :: 0 <= i < |s.users| ==> s'.users[i].invoices == s.users[i].invoices;
    assert NodeWellFormed(s'.users[p.user]) by {
      var u, u' := s.users[p.user], s'.users[p.user];
      assert NodeWellFormed(u);
      assert forall j :: 0 <= j < |u.services| ==> u'.services[j].id == u.services[j].id;
      forall j | 0 <= j < |u.services|
        ensures DistinctIds(u'.services[j].timeline)
      {
        assert DistinctIds(u.services[j].timeline);
        if j == p.service {
          var n, n' := u.services[j], u'.services[j];
          assert forall k :: 0 <= k < |n.timeline| ==> n'.timeline[k].id == n.timeline[k].id;
        }
      }
    }
  }

  /** Writing a timeline entry keeps every id, so the store stays well formed, and
      touches no invoice, so the one-invoice-per-service rule still holds. */
  lemma UpdateStatusPreservesInvariants(s: Store, uid: string, sid: string, tid: string, form: Option<string>, lib: Library)
    requires WellFormed(s) && OneInvoicePerService(s)
    ensures WellFormed(UpdateStatus(s, uid, sid, tid, form, lib).store)
    ensures OneInvoicePerService(UpdateStatus(s, uid, sid, tid, form, lib).store)
  {
    if CompletedAtValue(form, lib).Some? && Locate(s, uid, sid, tid).Some? {
      var p := Locate(s, uid, sid, tid).value;
      var v := CompletedAtValue(form, lib).value;
      assert UpdateStatus(s, uid, sid, tid, form, lib).store == SetCompletedAt(s, p, v);
      SetCompletedAtPreservesInvariants(s, p, v);
    }
  }

  lemma FindEntrySameIds(n: ServiceNode, n': ServiceNode, tid: string)
    requires |n'.timeline| == |n.timeline|
    requires forall k :: 0 <= k < |n.timeline| ==> n'.timeline[k].id == n.timeline[k].id
    ensures FindEntry(n', tid) == FindEntry(n, tid)
  {
    FirstIndexAgrees(n.timeline, (d: Doc<TimelineEntry>) => d.id == tid, n'.timeline, (d: Doc<TimelineEntry>) => d.id == tid);
  }

  /** A write keeps every id, so the route finds the same entry afterwards. */
  lemma LocateAfterWrite(s: Store, p: EntryPath, v: Value, uid: string, sid: string, tid: string)
    requires ValidPath(s, p)
    ensures Locate(SetCompletedAt(s, p, v), uid, sid, tid) == Locate(s, uid, sid, tid)
  {
    var s' := SetCompletedAt(s, p, v);
    SetCompletedAtFrame(s, p, v);
    FindUserSameIds(s, s', uid);
    var fu := FindUser(s, uid);
    if fu.Some? {
      var i := fu.value;
      FindServiceSameIds(s.users[i], s'.users[i], sid);
      var fs := FindService(s.users[i], sid);
      if fs.Some? {
        var j := fs.value;
        FindEntrySameIds(s.users[i].services[j], s'.users[i].services[j], tid);
      }
    }
  }

  lemma SetCompletedAtTwice(s: Store, p: EntryPath, v: Value)
    requires ValidPath(s, p)
    ensures ValidPath(SetCompletedAt(s, p, v), p)
    ensures SetCompletedAt(SetCompletedAt(s, p, v), p, v) == SetCompletedAt(s, p, v)
  {
    var s1 := SetCompletedAt(s, p, v);
    var u1 := s1.users[p.user];
    var n1 := u1.services[p.service];
    var e1 := n1.timeline[p.entry];
    assert e1.(data := e1.data.(completedAt := Some(v))) == e1;
    assert n1.timeline[p.entry := e1] == n1.timeline;
    assert n1.(timeline := n1.timeline) == n1;
    assert u1.services[p.service := n1] == u1.services;
    assert s1.users[p.user := u1] == s1.users;
  }

  /** Sending the same form twice leaves the store as sending it once, with the same response. */
  lemma UpdateStatusIdempotent(s: Store, uid: string, sid: string, tid: string, form: Option<string>, lib: Library)
    ensures var once := UpdateStatus(s, uid, sid, tid, form, lib);
      UpdateStatus(once.store, uid, sid, tid, form, lib) == once
  {
    if CompletedAtValue(form, lib).Some? && Locate(s, uid, sid, tid).Some? {
      var p := Locate(s, uid, sid, tid).value;
      var v := CompletedAtValue(form, lib).value;
      LocateAfterWrite(s, p, v, uid, sid, tid);
      SetCompletedAtTwice(s, p, v);
    }
  }

  /** Submitting the edit control's own value for a stored timestamp: on a day
      `localize` accepts, with a four-digit year, the write succeeds and stores
      the instant floored to the minute; on the first or last day of the
      `datetime` range `localize` overflows and the route answers 500 with no
      write. A timestamp outside that range has no control value: the page's
      own `astimezone` overflows before it is shown. */
  lemma InputValueRoundTrip(s: Store, uid: string, sid: string, tid: string, t: Instant, lib: Library)
    requires LawfulLibrary(lib) && InDatetimeRange(ToMalaysia(t))
    requires Locate(s, uid, sid, tid).Some?
    ensures Localizable(ToMalaysia(t)) && FourDigitYear(ToMalaysia(t)) ==>
      var p := Locate(s, uid, sid, tid).value;
      var r := UpdateStatus(s, uid, sid, tid, Some(ToInputValue(Time(t), lib)), lib);
      && r.response == Json(200, true, "Saved successfully")
      && ValidPath(r.store, p)
      && EntryAt(r.store, p).data.completedAt == Some(Time(FloorMinuteInstant(t)))
    ensures !Localizable(ToMalaysia(t)) ==>
      UpdateStatus(s, uid, sid, tid, Some(ToInputValue(Time(t), lib)), lib) == Reply(ServerError(MalformedDateTime), s)
  {
    InputValueEmptyIffNoTimestamp(Time(t), lib);
    FloorMinuteCommutes(t);
  }

  /** A write moves no record and changes no record other than that of the
      service holding the entry. */
  lemma SetCompletedAtOtherRecords(s: Store, p: EntryPath, v: Value, lib: Library)
    requires ValidPath(s, p)
    ensures var s' := SetCompletedAt(s, p, v);
      && |Index(s', lib)| == |Index(s, lib)|
      && (forall i, j :: ListedAt(s.users, i, j) ==>
            ListedAt(s'.users, i, j) && Position(s'.users, i, j) == Position(s.users, i, j))
      && (forall k :: 0 <= k < |Index(s, lib)| ==>
            (Index(s', lib)[k] == Index(s, lib)[k] ||
             (ListedAt(s.users, p.user, p.service) && k == Position(s.users, p.user, p.service))))
  {
    var s' := SetCompletedAt(s, p, v);
    SetCompletedAtFrame(s, p, v);
    assert SameBesidesTimelines(s.users, s'.users);
    IndexSameListing(s, s', lib);
    forall k | 0 <= k < |Index(s, lib)|
      ensures Index(s', lib)[k] == Index(s, lib)[k] ||
              (ListedAt(s.users, p.user, p.service) && k == Position(s.users, p.user, p.service))
    {
      IndexCover(s, lib, k);
      var i, j :| ListedAt(s.users, i, j) && k == Position(s.users, i, j) &&
        Index(s, lib)[k] == MakeRecord(s.users[i], s.users[i].services[j], s.feedback, lib);
      IndexRecordAt(s', lib, i, j);
      if i != p.user || j != p.service {
        assert s'.users[i].services[j] == s.users[i].services[j];
      }
    }
  }

  /** In the record of the service holding the entry, only the written timeline
      item changes, and it shows the new value through both formatters. */
  lemma SetCompletedAtWrittenRecord(s: Store, p: EntryPath, v: Value, lib: Library)
    requires ValidPath(s, p) && ListedAt(s.users, p.user, p.service)
    ensures var s' := SetCompletedAt(s, p, v);
      var k := Position(s.users, p.user, p.service);
      var e := EntryAt(s, p);
      && k < |Index(s, lib)|
      && k < |Index(s', lib)|
      && Index(s', lib)[k] == Index(s, lib)[k].(timeline := Index(s', lib)[k].timeline)
      && |Index(s', lib)[k].timeline| == |Index(s, lib)[k].timeline|
      && (forall q :: 0 <= q < |Index(s, lib)[k].timeline| && q != p.entry ==>
            Index(s', lib)[k].timeline[q] == Index(s, lib)[k].timeline[q])
      && p.entry < |Index(s', lib)[k].timeline|
      && Index(s', lib)[k].timeline[p.entry] ==
           (e.id, TimelineView(FieldValue(e.data.status), ToInputValue(v, lib), ToMalaysiaStr(v, lib)))
  {
    var s' := SetCompletedAt(s, p, v);
    SetCompletedAtFrame(s, p, v);
    assert SameBesidesTimelines(s.users, s'.users);
    IndexSameListing(s, s', lib);
    IndexRecordAt(s, lib, p.user, p.service);
    IndexRecordAt(s', lib, p.user, p.service);
  }

  /** What the dashboard shows after a successful write: the same records in the
      same places, all equal to before except the one service whose timeline
      holds the entry, and in that timeline only the written entry differs. */
  lemma UpdateStatusIndex(s: Store, uid: string, sid: string, tid: string, form: Option<string>, lib: Library)
    requires CompletedAtValue(form, lib).Some? && Locate(s, uid, sid, tid).Some?
    ensures var p := Locate(s, uid, sid, tid).value;
      var s' := UpdateStatus(s, uid, sid, tid, form, lib).store;
      && |Index(s', lib)| == |Index(s, lib)|
      && (forall k :: 0 <= k < |Index(s, lib)| ==>
            (Index(s', lib)[k] == Index(s, lib)[k] ||
             (ListedAt(s.users, p.user, p.service) && k == Position(s.users, p.user, p.service))))
      && (ListedAt(s.users, p.user, p.service) ==>
            var k := Position(s.users, p.user, p.service);
            var e := EntryAt(s, p);
            var v := CompletedAtValue(form, lib).value;
            && k < |Index(s, lib)|
            && Index(s', lib)[k] == Index(s, lib)[k].(timeline := Index(s', lib)[k].timeline)
            && |Index(s', lib)[k].timeline| == |Index(s, lib)[k].timeline|
            && (forall q :: 0 <= q < |Index(s, lib)[k].timeline| && q != p.entry ==>
                  Index(s', lib)[k].timeline[q] == Index(s, lib)[k].timeline[q])
            && p.entry < |Index(s', lib)[k].timeline|
            && Index(s', lib)[k].timeline[p.entry] ==
                 (tid, TimelineView(FieldValue(e.data.status), ToInputValue(v, lib), ToMalaysiaStr(v, lib))))
  {
    var p := Locate(s, uid, sid, tid).value;
    var v := CompletedAtValue(form, lib).value;
    assert UpdateStatus(s, uid, sid, tid, form, lib).store == SetCompletedAt(s, p, v);
    SetCompletedAtOtherRecords(s, p, v, lib);
    if ListedAt(s.users, p.user, p.service) {
      SetCompletedAtWrittenRecord(s, p, v, lib);
    }
  }
}
